=== FILE: README.md ===
# Node editor core in Dafny

A model of the computational core of a browser node-link diagram editor. Nodes sit on a
pannable, zoomable canvas and are joined by directed connections drawn as SVG edges. The
model covers:

- the HTML escaping applied to node labels (`escapeHtml`);
- the `"x y"` location strings of node records (`GeometryUtils.parsePoint` and
  `stringifyPoint`);
- the pan/zoom state of the canvas (`CanvasManager.setScale`, `setPan`, `toCanvas` and
  the ctrl-wheel zoom handler of `enablePanZoom`);
- edge geometry (`EdgeRenderer._getNodeAnchor`, `_orth`, the route choice of `render` and
  its guard against missing nodes);
- the bend-point edits of `EdgeHandleController.attach`: inserting a point from a segment's
  mid-handle, deleting one by double-click, moving one by dragging;
- `runSimulation`: the choice of the start node and the walk along first connections,
  which a visited set stops;
- `saveDesign`: the data object it serialises, whose node records drop every
  function-valued property.

JavaScript values are modelled by one datatype, `JsValues.JsValue`. The language operations
the code relies on are written out over it:

- truthiness;
- `Number(v)`, including the string grammar: whitespace trimming, the empty string,
  decimals with fraction and exponent, and `0x`/`0o`/`0b` literals;
- own-property reads;
- `===`;
- `Object.entries`.

Page state the code reads is passed in as plain data:

- each node element's inline `left`/`top` and its measured size;
- the corner of a measured element rectangle;
- a wheel event's fields.

Modules:

- `Wrappers`: `Option` and `Result` (the latter's error case is a thrown `TypeError`).
- `JsText`: decimal numerals, `Number(string)`, `split`/`join`, `replace`, `includes`,
  lower-casing.
- `JsValues`: the value datatype and the operations above.
- `Html`: `escapeHtml` and a decoder that serves as its inverse.
- `Geometry`: points, `Math.round`, `parsePoint`, `stringifyPoint`.
- `Viewport`: canvas state, its operations and the scale invariant.
- `Edges`: anchors, orthogonal routes, the drawing guard.
- `EdgeHandles`: the bend-point edits.
- `Simulation`: `runSimulation`.
- `Design`: `saveDesign`.

The ctrl-wheel handler keeps the canvas point under the cursor in place
(`Viewport.WheelZoomKeepsCursorPoint`).

## Model

| member | source | states |
|---|---|---|
| Html.Entity | node.js:8-14 | each of `& < > " '` becomes its named or numeric entity, which starts with `&` and ends with `;`; every other character is kept; no replacement contains a raw `<`, `>`, `"` or `'` |
| Html.EscapeHtml | node.js:7-15 | the escaped text contains no raw `<`, `>`, `"` or `'`; it is never shorter than the input; text without special characters is returned unchanged |
| Html.EscapeHtmlAppend | node.js:8 | the global replace works character by character: escaping a concatenation is concatenating the escapes |
| Html.UnescapeEscape | node.js:7-15 | decoding the five entities in the escaped text gives back the original text, so escaping loses nothing |
| Html.EscapeHtmlInjective | node.js:7-15 | two different labels never escape to the same markup |
| JsText.IntToStringToNumber | node.js:33-39 | `Number` applied to the decimal form of any integer, negative ones included, gives that integer back |
| JsText.SplitJoin | node.js:33 | `split` undoes `join` when no piece contains the separator |
| JsText.JoinSplit | node.js:33 | joining the pieces of `split` at the separator gives back the string |
| JsText.ReplaceFirstAfter | node.js:353 | `replace('px', '')` removes the first occurrence of the pattern: in a numeral followed by `px` that is exactly the unit suffix |
| JsText.ContainsOccurs | runsimlaiton_funktin.js:7 | `includes` holds exactly when the substring occurs at some position |
| Geometry.Round | node.js:39 | `Math.round` gives the integer nearest to its argument, a half rounded up |
| Geometry.ParsePoint | node.js:31-35 | any value that is not a string reads as the origin |
| Geometry.ParsePointTokens | node.js:33-34 | a location reads its first space-separated token as x and its second as y, with a missing or non-numeric token read as 0; tokens after the second are ignored |
| Geometry.StringifyPoint | node.js:31-40 | a missing point writes as `"0 0"`; reading a written location back gives the point rounded to integers, or the origin for a missing point |
| Geometry.WrittenPointParses | node.js:31-35 | two integers written in decimal and separated by one space read back as the point with those coordinates |
| Geometry.StringifyRounded | node.js:37-40 | a point and its rounded version write as the same string |
| Geometry.StringifyIsStable | node.js:37-40 | writing the point read back from a written location gives the same string |
| Viewport.SetScale | node.js:111-114 | the scale ends up in [0.1, 10] and the pan is kept; NaN and 0 give 1; a number in range is taken as is; larger numbers give 10 and smaller nonzero ones give 0.1 |
| Viewport.SetScaleIdempotent | node.js:111-114 | setting the scale to the value it already has changes nothing |
| Viewport.SetPan | node.js:116-119 | throws exactly for undefined and null; keeps the scale; each coordinate is `Number` of `p.x`/`p.y` (so numeric strings, booleans, null and arrays convert), and a missing or NaN coordinate becomes 0 |
| Viewport.ToCanvas | node.js:125-130 | the client-to-canvas mapping that `toCanvas` and the wheel handler (node.js:67-68) apply to a measured rectangle corner: the page places the canvas point it answers, at transform origin 0 0 relative to that corner, exactly on the client point |
| Viewport.ToCanvasInverse | node.js:66-68 | for a scale in [0.1, 10], the handler's mapping from client to canvas coordinates, measured against the untransformed wrapper, and the page's mapping back give the same point, in both directions |
| Viewport.ShownAtZeroOrigin | node.js:109 | with a zero transform origin, the page shows a canvas point where the inverse of the wheel handler's mapping puts it |
| Viewport.RectToCanvasFindsShownPoint | node.js:109 | measured against the bounding rectangle of the inner element, which `translate(pan) scale(s)` has moved, the offset divided by the scale is the canvas point shown at the client point, for every pan, scale and transform origin |
| Viewport.ToCanvasOfInnerRectOffByPan | node.js:125-130 | `toCanvas` as written, measured against that same rectangle, is off from the canvas point shown at the client point by the pan divided by the scale |
| Viewport.WheelZoom | node.js:60-73 | without ctrl nothing changes; with ctrl the new scale is the old one times 1.1 for wheel-up and 0.9 otherwise, limited to [0.4, 2.5]; within that range wheel-up never shrinks the scale and wheel-down never grows it; a scale above 2.5 shrinks and one below 0.4 grows; the scale stays in [0.1, 10] |
| Viewport.WheelZoomKeepsCursorPoint | node.js:63-71 | the canvas point under the cursor before a ctrl-wheel step is under the cursor after it |
| Viewport.Apply | node.js:60-119 | every `setScale`, `setPan` (a throwing call leaves the state as it was) and wheel step keeps the scale in [0.1, 10] |
| Viewport.ApplyAll | node.js:60-119 | any sequence of calls keeps the scale in [0.1, 10], so `toCanvas` never divides by zero; a sequence of `setPan` calls leaves the scale unchanged |
| Edges.BoxOf | node.js:352-353 | a node's box has the element's measured `offsetWidth` and `offsetHeight` as its size, never negative; its position read from `left`/`top` is pinned down by Edges.BoxOfPlacedElement |
| Edges.BoxOfPlacedElement | node.js:350-354 | an element whose inline `left`/`top` are `${x}px`/`${y}px` for integers x and y reads back at (x, y), as the renderer places nodes (node.js:151-153, 222-224) |
| Edges.SpotAnchor | node.js:355-373 | each side spot gives that side's midpoint, each corner spot that corner, any other spot the centre; every named spot's anchor lies on the box outline |
| Edges.NodeAnchor | node.js:350-374 | a node with no element anchors at the origin; otherwise a named spot lies on the outline of the element's box and any other spot is the box centre |
| Edges.Orth | node.js:377-381 | the route has four points from a to b; it leaves a horizontally to the midpoint between a.x and b.x, runs vertically there to b's height, then horizontally to b |
| Edges.OrthIsShortest | node.js:377-381 | every segment of the orthogonal route is axis-parallel, and its length along the axes equals the axis distance between its ends, the least any route can have (`ManhattanLengthLowerBound`) |
| Edges.Route | node.js:411-413 | the drawn path runs from anchor a to anchor b; with a non-empty `points` array it passes through exactly those points in order, otherwise it is axis-parallel |
| Edges.EdgeRoute | node.js:396-413 | with the intended guard, an edge is drawn exactly when both nodes have an element, and it runs from the source node's anchor to the target node's anchor |
| Edges.EdgeDrawnAsWritten | node.js:399-401 | the guard as written skips the edge of a missing element unless that node's id is the number 0, and it disagrees with the intended guard (both elements exist) only where an existing element's anchor is (0, 0) or a missing element's id is 0 |
| Edges.EdgeDrawnAsWrittenHidesNodeAtOrigin | node.js:401 | the guard as written hides the edge of a node placed at `0px`/`0px` and anchored at its top-left corner (see Findings) |
| Edges.EdgeDrawnKeepsNodeAtOrigin | node.js:401 | with the intended guard, that same edge is drawn, and an edge whose node has no element is not |
| EdgeHandles.HandleRoute | node.js:278-279 | the handle route is the source anchor, the bend points in order, then the target anchor; a `points` value that is not an array adds no bend points |
| EdgeHandles.InsertBend | node.js:312-321 | the mid-handle of segment i adds one point, the rounded midpoint of that segment, at index i; the points before it keep their indices and those after it move up by one |
| EdgeHandles.InsertBendSplitsSegment | node.js:312-321 | after the insertion the route is the old route with the new point between the two ends of the pressed segment |
| EdgeHandles.DeleteBend | node.js:305-309 | a double-click removes exactly the clicked bend point: the other points keep their order, and the multiset of points loses exactly that point |
| EdgeHandles.DeleteUndoesInsert | node.js:305-321 | deleting the point a mid-handle press just inserted restores the bend points |
| EdgeHandles.MoveBend | node.js:284-292 | a drag sets the dragged point to the rounded position and leaves every other point unchanged |
| EdgeHandles.MoveBendLastWins | node.js:284-292 | two drag moves of one point amount to the last one |
| EdgeHandles.DragBendAsWritten | node.js:267-292 | a drag move as written stores the rounded `toCanvas` image of the cursor in the dragged point only |
| EdgeHandles.DragBendAsWrittenMisplaces | node.js:125-130 | with the canvas panned by (100, 0) at scale 1, dragging a bend point to where (50, 50) is shown stores (-50, 50) |
| EdgeHandles.DragBend | node.js:267-292 | a drag move, with the corrected mapping, stores the rounded canvas point under the cursor in the dragged point only |
| EdgeHandles.DragBendToShownPoint | node.js:267-292 | dragging to where the page shows an integer canvas point stores exactly that point, for every pan, scale and transform origin |
| Simulation.StartTagged | runsimlaiton_funktin.js:7 | the tag test throws exactly for an undefined or null node, or a truthy tag that is not a string; it accepts a node exactly when its tag is a string containing `start` in any ASCII case |
| Simulation.LowerContainsStart | runsimlaiton_funktin.js:7 | lower-casing the tag and searching for `start` is searching the tag for `start` case-insensitively |
| Simulation.StartTaggedIsObject | runsimlaiton_funktin.js:7 | a node the tag test accepts is an object and so truthy: the `|| nodes[0]` fallback only applies when no node is accepted |
| Simulation.FindFirst | runsimlaiton_funktin.js:7 | `find` over the test outcomes yields the first accepted index with every earlier outcome a rejection; none exactly when every outcome is a rejection; an error exactly when some outcome is an error and every earlier one a rejection |
| Simulation.FindStart | runsimlaiton_funktin.js:7 | the search yields the first accepted node, with every earlier node rejected; it finds none exactly when every node is rejected; it throws exactly when some node makes the test throw and every earlier node is rejected |
| Simulation.StartNode | runsimlaiton_funktin.js:7 | the start node is a member of the array; it throws exactly when the search throws; it is the first tagged node when every node before it is rejected; without a tagged node it is `nodes[0]` |
| Simulation.FirstConnection | runsimlaiton_funktin.js:14 | the next id is truthy or undefined; a node without truthy `connections` has none, and neither has one with an empty array; for an array of connections it is the first one when that is truthy |
| Simulation.FindNode | runsimlaiton_funktin.js:6 | the index of the first truthy node whose `id` is `===` to the id, with no earlier node matching; none exactly when no node matches |
| Simulation.GetNode | runsimlaiton_funktin.js:6 | `getNode` answers undefined exactly when no node matches; otherwise the first node that matches |
| Simulation.Next | runsimlaiton_funktin.js:14-15 | the walk moves to undefined or to a truthy member node whose id is `===` to the current node's first connection |
| Simulation.NextIsFirstMatch | runsimlaiton_funktin.js:6-15 | when the current node's first connection is truthy, the walk moves to exactly what `getNode` answers for it; the walk stops exactly when there is no truthy first connection or no node answers to it, and otherwise moves to the first node that answers to it |
| Simulation.Walk | runsimlaiton_funktin.js:8-16 | the loop produces the walk from the start node: it begins at start, each node is the one its predecessor's first connection names, no id repeats, and the node after the last is missing or has an id already visited; the path holds the visited nodes' ids in order and is no longer than the number of distinct node ids, so the loop ends |
| Simulation.WalkUnique | runsimlaiton_funktin.js:8-16 | there is exactly one such walk from a given start, so the path is determined by the nodes and the start alone |
| Simulation.RunSimulation | runsimlaiton_funktin.js:4-16 | a non-array or empty array does nothing; the call throws exactly when the start search throws; otherwise the highlighted path is the id path of the walk from the start node |
| Design.DropFunctions | savedesing_funktin.js:8 | the filter keeps exactly the entries whose value is not a function, in their original order (a subsequence) |
| Design.NoFunctionsKept | savedesing_funktin.js:8 | the filtered entries hold no function, and entries without functions are kept as they are |
| Design.RecordLookup | savedesing_funktin.js:8-9 | a saved record keeps distinct keys, and each of its properties reads as the node's own, except that a function-valued one reads as undefined |
| Design.Record | savedesing_funktin.js:8-9 | a record throws exactly for an undefined or null node; otherwise it is an object with no function-valued property; an object node without functions is saved as it is |
| Design.Records | savedesing_funktin.js:7-10 | mapping throws exactly when some node is undefined or null; otherwise there is one record per node, in order |
| Design.SaveDesign | savedesing_funktin.js:6-11 | a value that is not an array saves as `{nodes: []}`; saving throws exactly when some node is undefined or null; otherwise `nodes` holds each node's record in order |
| Design.SaveDesignIdempotent | savedesing_funktin.js:6-11 | saving the `nodes` array of a saved design gives the same data again |

## Left out

- DOM work is not modelled. This covers element creation, SVG markup and path strings, writing the `transform` style string, event listener wiring, `requestAnimationFrame` and the `setInterval` timer that highlights the simulation path. The model stops at the data these steps consume: the route points, the bend-point list, the id path and the design object.
- `getBoundingClientRect` is not modelled: the model takes the measured corner as a parameter. `Viewport.Shown` and `Viewport.InnerRect` give the page's placement of the transformed inner element, with its untransformed corner and its CSS `transform-origin` as parameters.
- Viewport.WheelZoomKeepsCursorPoint: holds for a page whose inner element has `transform-origin: 0 0` and sits at the wrapper's top-left corner. The stylesheet is not part of this model. Under the CSS default `50% 50%`, the handler's canvas point differs from the one shown under the cursor whenever the scale is not 1.
- Edges.EdgeRoute: the endpoint shortening by `fromShortLength`/`toShortLength` along the edge's angle is not modelled, because it uses trigonometry. The model's route ends exactly at the anchors.
- Edges.EdgeRoute: `render`'s lookup of the target node, `getById(conn.to)`, is represented by the caller passing the target's element.
- `render`'s handling of Map-valued node collections is not modelled. Its `viewBox` sizing and edge colours are not modelled either.
- `JSON.stringify` of the design is not modelled. Design.SaveDesign stops at the object that is serialised.
- Numbers are exact reals or NaN. IEEE double rounding is not modelled. `Infinity` is not representable, so `Number("Infinity")` reads as NaN, which changes `setScale("Infinity")` from 10 to 1.
- `String(s)` coercion inside `escapeHtml` is not modelled: Html.EscapeHtml takes a string.
- `Number(v)` for an object uses `"[object Object]"`, which is NaN. A user-defined `valueOf` or `toString` is not modelled.
- Simulation.StartTagged: a tag that is an object with its own `toLowerCase` function is not modelled; the model says it throws.
- Objects are compared by content, not by reference. This affects `===` in `getNode` and the SameValueZero membership test of the simulation's visited set. NaN is a single value in the model, so the set treats NaN ids as equal, as SameValueZero does.
- Only own properties are read. Inherited properties and getters are not modelled, and array holes are not modelled.
- `toLowerCase` is modelled as ASCII lower-casing. The only non-ASCII characters whose full lower-case mapping contains ASCII letters map to `i` or `k`, which cannot form `start`, so the tag test is unaffected.
- Strings are sequences of characters. UTF-16 surrogate pairs are not modelled.
- Geometry.StringifyPoint: JavaScript writes very large numbers in exponent notation. The model writes every integer in plain decimal.
- `getScale`, `getPan`, the mouse-drag panning of `enablePanZoom` and `disablePanZoom` are not modelled. They are plain field reads and writes with no arithmetic beyond subtraction.
- script.js, the page's wiring of these classes, is not part of this model.

## Findings

| source | as written | input that shows it | evidently intended | confidence | as-written member | corrected member |
|---|---|---|---|---|---|---|
| node.js:401 | an edge is skipped whenever either anchor is exactly (0, 0) and that node's id is not the number 0 | a node element at `left: 0px; top: 0px` whose connection uses `fromSpot: 'TopLeft'`: its anchor is (0, 0), so its edge is hidden although the element exists | skip an edge only when a node's element is missing, the case for which `_getNodeAnchor` answers (0, 0) | medium, not executed | Edges.EdgeDrawnAsWritten, Edges.EdgeDrawnAsWrittenHidesNodeAtOrigin | Edges.EdgeRoute |
| node.js:125-130 | `toCanvas` subtracts the pan from the client point after subtracting the corner of the inner element's bounding rectangle, and the inline transform `translate(pan) scale(s)` has already moved that corner by the pan | canvas panned by (100, 0) at scale 1; dragging a bend point to where canvas point (50, 50) is shown stores (-50, 50) | the canvas point under the cursor, `(client - rect) / scale`, which needs no pan term because the measured rectangle already includes it | medium, not executed | EdgeHandles.DragBendAsWrittenMisplaces | EdgeHandles.DragBend |

=== FILE: design.dfy ===
/** `saveDesign(nodes)` (savedesing_funktin.js) up to the JSON text: the data object
    `{nodes: [...]}` whose records are the nodes' own enumerable properties with every
    function-valued property removed. */
module Design {
  import opened Wrappers
  import opened JsValues

  /** a is b with some elements left out, the rest in their order. */
  ghost predicate SubsequenceOf(a: seq<Field>, b: seq<Field>)
    decreases |b|
  {
    if |a| == 0 then true
    else if |b| == 0 then false
    else (a[0] == b[0] && SubsequenceOf(a[1..], b[1..])) || SubsequenceOf(a, b[1..])
  }

  /** The filter `typeof v !== 'function'` over a record's entries. */
  function DropFunctions(fs: seq<Field>): (r: seq<Field>)
    ensures forall f :: f in r <==> f in fs && !f.value.Func?
    ensures SubsequenceOf(r, fs)
    ensures |r| <= |fs|
  {
    if |fs| == 0 then []
    else if fs[0].value.Func? then DropFunctions(fs[1..])
    else [fs[0]] + DropFunctions(fs[1..])
  }

  /** A record has no function-valued property. */
  predicate NoFunctions(fs: seq<Field>) {
    forall k :: 0 <= k < |fs| ==> !fs[k].value.Func?
  }

  /** Keys stay distinct when fields are left out. */
  lemma {:induction false} SubsequenceKeepsDistinctKeys(a: seq<Field>, b: seq<Field>)
    requires SubsequenceOf(a, b) && DistinctKeys(b)
    ensures DistinctKeys(a)
    decreases |b|
  {
    if |a| > 0 && |b| > 0 {
      assert DistinctKeys(b[1..]);
      if a[0] == b[0] && SubsequenceOf(a[1..], b[1..]) {
        SubsequenceKeepsDistinctKeys(a[1..], b[1..]);
        SubsequenceMembers(a[1..], b[1..]);
        forall j | 0 < j < |a|
          ensures a[0].key != a[j].key
        {
          assert a[1..][j - 1] == a[j];
          assert a[j] in a[1..];
          assert a[j] in b[1..];
          var i :| 0 <= i < |b[1..]| && b[1..][i] == a[j];
          assert b[i + 1] == a[j];
        }
      } else {
        SubsequenceKeepsDistinctKeys(a, b[1..]);
      }
    }
  }

  /** Every element of a subsequence is an element of the sequence. */
  lemma {:induction false} SubsequenceMembers(a: seq<Field>, b: seq<Field>)
    requires SubsequenceOf(a, b)
    ensures forall x :: x in a ==> x in b
    decreases |b|
  {
    if |a| > 0 && |b| > 0 {
      if a[0] == b[0] && SubsequenceOf(a[1..], b[1..]) {
        SubsequenceMembers(a[1..], b[1..]);
        assert a == [a[0]] + a[1..];
      } else {
        SubsequenceMembers(a, b[1..]);
      }
    }
  }

  /** Reading a property of the filtered record gives what the node held, except that a
      function-valued property reads as undefined. */
  lemma {:induction false} DropFunctionsLookup(fs: seq<Field>, key: string)
    requires DistinctKeys(fs)
    ensures Lookup(DropFunctions(fs), key) == if Lookup(fs, key).Func? then Undefined else Lookup(fs, key)
    decreases |fs|
  {
    if |fs| > 0 {
      assert DistinctKeys(fs[1..]);
      DropFunctionsLookup(fs[1..], key);
      if fs[0].key == key {
        if fs[0].value.Func? {
          LookupAbsent(DropFunctions(fs[1..]), key);
        }
      }
    }
  }

  /** No field with the key: the lookup is undefined. */
  lemma {:induction false} LookupAbsent(fs: seq<Field>, key: string)
    requires forall k :: 0 <= k < |fs| ==> fs[k].key != key
    ensures Lookup(fs, key) == Undefined
    decreases |fs|
  {
    if |fs| > 0 {
      LookupAbsent(fs[1..], key);
    }
  }

  /** `Object.fromEntries(Object.entries(n).filter(…))`: throws for undefined and null,
      otherwise the object of n's non-function own properties. */
  function Record(n: JsValue): (r: Result<JsValue>)
    ensures r.TypeError? <==> Nullish(n)
    ensures r.Ok? ==> r.value.Obj? && NoFunctions(r.value.fields)
    ensures n.Obj? ==> r == Ok(Obj(DropFunctions(n.fields)))
    ensures n.Obj? && NoFunctions(n.fields) ==> r == Ok(n)
  {
    match Entries(n)
    case TypeError(e) => TypeError(e)
    case Ok(fs) =>
      NoFunctionsKept(fs);
      Ok(Obj(DropFunctions(fs)))
  }

  /** A saved node record has the node's keys, still distinct, and each of its properties
      reads as the node's, except that a function-valued property reads as undefined. */
  lemma {:induction false} RecordLookup(n: JsValue, key: string)
    requires n.Obj? && DistinctKeys(n.fields)
    ensures Record(n).Ok? && DistinctKeys(Record(n).value.fields)
    ensures Get(Record(n).value, key) == if Get(n, key).Func? then Undefined else Get(n, key)
  {
    SubsequenceKeepsDistinctKeys(DropFunctions(n.fields), n.fields);
    DropFunctionsLookup(n.fields, key);
  }

  /** The filter keeps a record without functions as it is, and leaves none behind. */
  lemma {:induction false} NoFunctionsKept(fs: seq<Field>)
    ensures NoFunctions(DropFunctions(fs))
    ensures NoFunctions(fs) ==> DropFunctions(fs) == fs
    decreases |fs|
  {
    if |fs| > 0 {
      NoFunctionsKept(fs[1..]);
      if NoFunctions(fs) {
        assert NoFunctions(fs[1..]);
      }
    }
  }

  /** The records of all nodes, in order; the first undefined or null node throws. */
  function Records(items: seq<JsValue>): (r: Result<seq<JsValue>>)
    ensures r.TypeError? <==> exists k :: 0 <= k < |items| && Nullish(items[k])
    ensures r.Ok? ==> |r.value| == |items| && forall k :: 0 <= k < |items| ==> Record(items[k]) == Ok(r.value[k])
  {
    if |items| == 0 then Ok([])
    else
      match Record(items[0])
      case TypeError(e) => TypeError(e)
      case Ok(first) =>
        match Records(items[1..])
        case TypeError(e) => TypeError(e)
        case Ok(rest) => Ok([first] + rest)
  }

  /** `saveDesign(nodes)`: the data object it serialises. A value that is not an array
      saves as no nodes. */
  function SaveDesign(nodes: JsValue): (r: Result<JsValue>)
    ensures !nodes.Arr? ==> r == Ok(Obj([Field("nodes", Arr([]))]))
    ensures r.TypeError? <==> nodes.Arr? && exists k :: 0 <= k < |nodes.items| && Nullish(nodes.items[k])
    ensures r.Ok? && nodes.Arr? ==>
              && r.value.Obj? && |r.value.fields| == 1 && r.value.fields[0].key == "nodes"
              && r.value.fields[0].value.Arr?
              && |r.value.fields[0].value.items| == |nodes.items|
              && forall k :: 0 <= k < |nodes.items| ==> Record(nodes.items[k]) == Ok(r.value.fields[0].value.items[k])
  {
    var items := if nodes.Arr? then nodes.items else [];
    match Records(items)
    case TypeError(e) => TypeError(e)
    case Ok(rs) => Ok(Obj([Field("nodes", Arr(rs))]))
  }

  /** Saving a saved design again changes nothing: its records hold no functions. */
  lemma {:induction false} SaveDesignIdempotent(nodes: JsValue)
    requires SaveDesign(nodes).Ok?
    ensures SaveDesign(Get(SaveDesign(nodes).value, "nodes")) == SaveDesign(nodes)
  {
    var rs := Get(SaveDesign(nodes).value, "nodes");
    assert rs.Arr?;
    var again := Records(rs.items);
    assert again.Ok?;
    assert again.value == rs.items;
  }
}

=== FILE: edgehandles.dfy ===
/** The bend-point edits of `EdgeHandleController.attach` (node.js): a connection's
    `points` list between anchors a and b is shown as a route; pressing the mid-handle of
    a segment inserts a bend point there, double-clicking a bend point's handle deletes
    it, and dragging it moves it. Each edit is one event applied to the list as it was
    when the handles were attached. */
module EdgeHandles {
  import opened Wrappers
  import opened Geometry
  import opened Viewport

  /** `conn.points` when it is an array; None stands for any other value. */
  type BendList = Option<seq<Point>>

  /** The bend points the route uses: the array, or none when `points` is not an array. */
  function Bends(points: BendList): seq<Point> {
    if points.Some? then points.value else []
  }

  /** `route`: the source anchor, the bend points in order, the target anchor. */
  function HandleRoute(a: Point, b: Point, points: BendList): (r: seq<Point>)
    ensures |r| == |Bends(points)| + 2
    ensures r[0] == a && r[|r| - 1] == b
    ensures r[1..|r| - 1] == Bends(points)
  {
    [a] + Bends(points) + [b]
  }

  function Min(x: int, y: int): int {
    if x <= y then x else y
  }

  /** The bend point the mid-handle of segment i adds: the segment's midpoint, rounded. */
  function MidHandlePoint(a: Point, b: Point, points: BendList, i: nat): Point
    requires i < |Bends(points)| + 1
  {
    var route := HandleRoute(a, b, points);
    RoundPoint(Mid(route[i], route[i + 1]))
  }

  /** Pressing the mid-handle of route segment i: a list that is not an array becomes
      the empty array, then the rounded midpoint is spliced in at `min(i, length)`. */
  function InsertBend(a: Point, b: Point, points: BendList, i: nat): (r: seq<Point>)
    requires i < |Bends(points)| + 1
    ensures |r| == |Bends(points)| + 1
    ensures r[Min(i, |Bends(points)|)] == MidHandlePoint(a, b, points, i)
    ensures forall k :: 0 <= k < i ==> r[k] == Bends(points)[k]
    ensures forall k :: i < k < |r| ==> r[k] == Bends(points)[k - 1]
  {
    var pts := Bends(points);
    var at := Min(i, |pts|);
    pts[..at] + [MidHandlePoint(a, b, points, i)] + pts[at..]
  }

  /** The new bend point lands on the segment whose handle was pressed: the new route is
      the old one with the point inserted between that segment's ends. */
  lemma {:induction false} InsertBendSplitsSegment(a: Point, b: Point, points: BendList, i: nat)
    requires i < |Bends(points)| + 1
    ensures var route := HandleRoute(a, b, points);
            HandleRoute(a, b, Some(InsertBend(a, b, points, i)))
            == route[..i + 1] + [MidHandlePoint(a, b, points, i)] + route[i + 1..]
  {
    var route := HandleRoute(a, b, points);
    var pts := Bends(points);
    var m := MidHandlePoint(a, b, points, i);
    var ins := InsertBend(a, b, points, i);
    assert ins == pts[..i] + [m] + pts[i..];
    assert route == [a] + pts + [b];
    assert route[..i + 1] == [a] + pts[..i];
    assert route[i + 1..] == pts[i..] + [b];
    calc {
      HandleRoute(a, b, Some(ins));
      [a] + ins + [b];
      [a] + (pts[..i] + [m] + pts[i..]) + [b];
      ([a] + pts[..i]) + [m] + (pts[i..] + [b]);
    }
  }

  /** Double-clicking the handle of bend point idx: `splice(idx, 1)` removes exactly that
      entry; the others keep their order. */
  function DeleteBend(points: seq<Point>, idx: nat): (r: seq<Point>)
    requires idx < |points|
    ensures |r| == |points| - 1
    ensures forall k :: 0 <= k < idx ==> r[k] == points[k]
    ensures forall k :: idx <= k < |r| ==> r[k] == points[k + 1]
    ensures multiset(r) + multiset{points[idx]} == multiset(points)
  {
    assert points == points[..idx] + [points[idx]] + points[idx + 1..];
    points[..idx] + points[idx + 1..]
  }

  /** Deleting the bend point a mid-handle press just added restores the list. */
  lemma {:induction false} DeleteUndoesInsert(a: Point, b: Point, points: seq<Point>, i: nat)
    requires i < |points| + 1
    ensures DeleteBend(InsertBend(a, b, Some(points), i), i) == points
  {
  }

  /** Dragging the handle of bend point idx to canvas point pos: the entry becomes pos
      rounded; the others are untouched. */
  function MoveBend(points: seq<Point>, idx: nat, pos: Point): (r: seq<Point>)
    requires idx < |points|
    ensures |r| == |points|
    ensures r[idx].x == Round(pos.x) as real && r[idx].y == Round(pos.y) as real
    ensures forall k :: 0 <= k < |r| && k != idx ==> r[k] == points[k]
  {
    points[idx := RoundPoint(pos)]
  }

  /** Only the last position of a drag counts: moving a bend point twice is moving it once
      to the second position. */
  lemma {:induction false} MoveBendLastWins(points: seq<Point>, idx: nat, p: Point, q: Point)
    requires idx < |points|
    ensures MoveBend(MoveBend(points, idx, p), idx, q) == MoveBend(points, idx, q)
  {
  }

  /** A mouse move during the drag of handle idx as written: the client position is
      mapped by `toCanvas`, which measures the transformed inner element (corner `rect`)
      and then subtracts the pan once more, and the result is rounded into the bend point. */
  function DragBendAsWritten(points: seq<Point>, idx: nat, c: Canvas, rect: Point, client: Point): (r: seq<Point>)
    requires idx < |points| && Valid(c)
    ensures |r| == |points|
    ensures forall k :: 0 <= k < |r| && k != idx ==> r[k] == points[k]
    ensures RoundPoint(ToCanvas(c, rect, client)) == r[idx]
  {
    MoveBend(points, idx, ToCanvas(c, rect, client))
  }

  /** With the canvas panned 100px to the right at scale 1, dragging a bend point to where
      canvas point (50, 50) is shown stores (-50, 50): the point jumps away from the cursor. */
  lemma {:induction false} DragBendAsWrittenMisplaces(points: seq<Point>, idx: nat)
    requires idx < |points|
    ensures var c := Canvas(1.0, Point(100.0, 0.0));
            var q := Point(50.0, 50.0);
            DragBendAsWritten(points, idx, c, InnerRect(c, Origin, Origin), Shown(c, Origin, Origin, q))[idx]
            == Point(-50.0, 50.0)
  {
    var c := Canvas(1.0, Point(100.0, 0.0));
    var q := Point(50.0, 50.0);
    ToCanvasOfInnerRectOffByPan(c, Origin, Origin, q);
    assert ToCanvas(c, InnerRect(c, Origin, Origin), Shown(c, Origin, Origin, q)) == Point(-50.0, 50.0);
    RoundInteger(-50);
    RoundInteger(50);
  }

  /** A mouse move during the drag of handle idx, with the mapping as intended: the client
      position, relative to the measured corner `rect` of the transformed inner element and
      divided by the scale, rounded into the bend point. */
  function DragBend(points: seq<Point>, idx: nat, c: Canvas, rect: Point, client: Point): (r: seq<Point>)
    requires idx < |points| && Valid(c)
    ensures |r| == |points|
    ensures forall k :: 0 <= k < |r| && k != idx ==> r[k] == points[k]
    ensures RoundPoint(RectToCanvas(c, rect, client)) == r[idx]
  {
    MoveBend(points, idx, RectToCanvas(c, rect, client))
  }

  /** A drag to where the page shows an integer canvas point puts the bend point exactly
      there, whatever the pan, scale and transform origin. */
  lemma {:induction false} DragBendToShownPoint(points: seq<Point>, idx: nat, c: Canvas, corner: Point, to: Point, x: int, y: int)
    requires idx < |points| && Valid(c)
    ensures var q := Point(x as real, y as real);
            DragBend(points, idx, c, InnerRect(c, corner, to), Shown(c, corner, to, q))[idx] == q
  {
    var q := Point(x as real, y as real);
    RectToCanvasFindsShownPoint(c, corner, to, q);
    RoundInteger(x);
    RoundInteger(y);
  }
}

=== FILE: edges.dfy ===
/** Edge geometry of `EdgeRenderer` (node.js): the anchor point of a node for a named
    spot, the three-segment orthogonal route between two anchors, the choice between a
    connection's own bend points and that route, and the guard that decides whether an
    edge is drawn. A node's element is passed in as the data the source reads from it. */
module Edges {
  import opened Wrappers
  import opened JsText
  import opened JsValues
  import opened Geometry

  /** A node's rectangle: top-left corner, width and height. */
  datatype Box = Box(x: real, y: real, w: real, h: real)

  /** What `_getNodeAnchor` reads from a node's element: the inline `left` and `top`
      styles and the measured `offsetWidth` and `offsetHeight`. */
  datatype NodeElement = NodeElement(left: string, top: string, offsetWidth: nat, offsetHeight: nat)

  function TopLeft(b: Box): Point { Point(b.x, b.y) }
  function TopRight(b: Box): Point { Point(b.x + b.w, b.y) }
  function BottomLeft(b: Box): Point { Point(b.x, b.y + b.h) }
  function BottomRight(b: Box): Point { Point(b.x + b.w, b.y + b.h) }

  /** p lies on the outline of b. */
  ghost predicate OnBoundary(b: Box, p: Point) {
    && b.x <= p.x <= b.x + b.w
    && b.y <= p.y <= b.y + b.h
    && (p.x == b.x || p.x == b.x + b.w || p.y == b.y || p.y == b.y + b.h)
  }

  /** The spot names `_getNodeAnchor` recognises. */
  predicate IsNamedSpot(spot: string) {
    spot in {"Top", "Bottom", "Left", "Right", "TopLeft", "TopRight", "BottomLeft", "BottomRight"}
  }

  /** The rectangle of a node's element: the position parsed from `left` and `top` with
      their first "px" removed, and the measured size. */
  function BoxOf(el: NodeElement): (b: Box)
    ensures b.w == el.offsetWidth as real && b.h == el.offsetHeight as real
    ensures b.w >= 0.0 && b.h >= 0.0
  {
    var pos := ParsePoint(Str(ReplaceFirst(el.left, "px", "") + " " + ReplaceFirst(el.top, "px", "")));
    Box(pos.x, pos.y, el.offsetWidth as real, el.offsetHeight as real)
  }

  /** An element the renderer placed at integer position (x, y) is read back at (x, y). */
  lemma {:induction false} BoxOfPlacedElement(x: int, y: int, w: nat, h: nat)
    ensures BoxOf(NodeElement(IntToString(x) + "px", IntToString(y) + "px", w, h)) == Box(x as real, y as real, w as real, h as real)
  {
    var a, b := IntToString(x), IntToString(y);
    ReplaceFirstAfter(a, "px", "", "");
    ReplaceFirstAfter(b, "px", "", "");
    assert a + "px" + "" == a + "px" && a + "" + "" == a;
    assert b + "px" + "" == b + "px" && b + "" + "" == b;
    ParsePointTokens(a, b, "");
    IntToStringToNumber(x);
    IntToStringToNumber(y);
  }

  /** The anchor of box b for a spot: the midpoint of the named side, the named corner,
      or the centre for any other spot (the default spot is "Center"). */
  function SpotAnchor(b: Box, spot: string): (p: Point)
    ensures b.w >= 0.0 && b.h >= 0.0 && IsNamedSpot(spot) ==> OnBoundary(b, p)
    ensures !IsNamedSpot(spot) ==> p == Mid(TopLeft(b), BottomRight(b))
    ensures spot == "Top" ==> p == Mid(TopLeft(b), TopRight(b))
    ensures spot == "Bottom" ==> p == Mid(BottomLeft(b), BottomRight(b))
    ensures spot == "Left" ==> p == Mid(TopLeft(b), BottomLeft(b))
    ensures spot == "Right" ==> p == Mid(TopRight(b), BottomRight(b))
    ensures spot == "TopLeft" ==> p == TopLeft(b)
    ensures spot == "TopRight" ==> p == TopRight(b)
    ensures spot == "BottomLeft" ==> p == BottomLeft(b)
    ensures spot == "BottomRight" ==> p == BottomRight(b)
  {
    if spot == "Top" then Point(b.x + b.w / 2.0, b.y)
    else if spot == "Bottom" then Point(b.x + b.w / 2.0, b.y + b.h)
    else if spot == "Left" then Point(b.x, b.y + b.h / 2.0)
    else if spot == "Right" then Point(b.x + b.w, b.y + b.h / 2.0)
    else if spot == "TopLeft" then Point(b.x, b.y)
    else if spot == "TopRight" then Point(b.x + b.w, b.y)
    else if spot == "BottomLeft" then Point(b.x, b.y + b.h)
    else if spot == "BottomRight" then Point(b.x + b.w, b.y + b.h)
    else Point(b.x + b.w / 2.0, b.y + b.h / 2.0)
  }

  /** `_getNodeAnchor(id, spot)`, given the element the page holds for id (None when
      there is none): a missing element gives the origin. */
  function NodeAnchor(el: Option<NodeElement>, spot: string): (p: Point)
    ensures el.None? ==> p == Origin
    ensures el.Some? && IsNamedSpot(spot) ==> OnBoundary(BoxOf(el.value), p)
    ensures el.Some? && !IsNamedSpot(spot) ==> p == Mid(TopLeft(BoxOf(el.value)), BottomRight(BoxOf(el.value)))
  {
    match el
    case None => Origin
    case Some(e) => SpotAnchor(BoxOf(e), spot)
  }

  /** `_orth(a, b)`: horizontally from a to the horizontal midpoint, vertically to b's
      height, then horizontally to b. */
  function Orth(a: Point, b: Point): (r: seq<Point>)
    ensures |r| == 4 && r[0] == a && r[3] == b
    ensures r[1].x == r[2].x == a.x + (b.x - a.x) / 2.0
    ensures r[1].y == a.y && r[2].y == b.y
  {
    var midX := a.x + (b.x - a.x) / 2.0;
    [a, Point(midX, a.y), Point(midX, b.y), b]
  }

  function Abs(v: real): real {
    if v < 0.0 then -v else v
  }

  /** The length of a route measured along the axes. */
  function ManhattanLength(ps: seq<Point>): real
    decreases |ps|
  {
    if |ps| < 2 then 0.0
    else Abs(ps[1].x - ps[0].x) + Abs(ps[1].y - ps[0].y) + ManhattanLength(ps[1..])
  }

  /** Every segment of the route is horizontal or vertical. */
  ghost predicate AxisParallel(ps: seq<Point>) {
    forall k :: 0 <= k < |ps| - 1 ==> ps[k].x == ps[k + 1].x || ps[k].y == ps[k + 1].y
  }

  /** No route between two points is shorter, along the axes, than their axis distance. */
  lemma {:induction false} ManhattanLengthLowerBound(ps: seq<Point>)
    requires |ps| >= 1
    ensures ManhattanLength(ps) >= Abs(ps[|ps| - 1].x - ps[0].x) + Abs(ps[|ps| - 1].y - ps[0].y)
    decreases |ps|
  {
    if |ps| >= 2 {
      ManhattanLengthLowerBound(ps[1..]);
      assert ps[1..][|ps[1..]| - 1] == ps[|ps| - 1];
    }
  }

  /** The orthogonal route is axis-parallel and makes no detour: its length is exactly
      the axis distance between its ends, the least any route can have. */
  lemma {:induction false} OrthIsShortest(a: Point, b: Point)
    ensures AxisParallel(Orth(a, b))
    ensures ManhattanLength(Orth(a, b)) == Abs(b.x - a.x) + Abs(b.y - a.y)
  {
    var r := Orth(a, b);
    var midX := a.x + (b.x - a.x) / 2.0;
    assert r[2..][1..] == r[3..];
    assert r[1..][1..] == r[2..];
    assert ManhattanLength(r[3..]) == 0.0;
    assert ManhattanLength(r[2..]) == Abs(b.x - midX);
    assert ManhattanLength(r[1..]) == Abs(b.y - a.y) + Abs(b.x - midX);
    assert ManhattanLength(r) == Abs(midX - a.x) + Abs(b.y - a.y) + Abs(b.x - midX);
    assert Abs(midX - a.x) + Abs(b.x - midX) == Abs(b.x - a.x);
  }

  /** The route `render` draws for an edge between anchors a and b: through the
      connection's own bend points when it has any, otherwise the orthogonal route. */
  function Route(a: Point, b: Point, points: Option<seq<Point>>): (r: seq<Point>)
    ensures |r| >= 2 && r[0] == a && r[|r| - 1] == b
    ensures points.Some? && |points.value| > 0 ==> r[1..|r| - 1] == points.value
    ensures !(points.Some? && |points.value| > 0) ==> AxisParallel(r)
  {
    if points.Some? && |points.value| > 0 then [a] + points.value + [b] else Orth(a, b)
  }

  /** The guard of `render` as written: an edge is skipped when either anchor is exactly
      the origin and that node's id is not the number 0. It is meant to catch a missing
      element, for which `_getNodeAnchor` answers with the origin. It catches that case
      unless the id is the number 0, and it departs from EdgeDrawn only where an existing
      element's anchor is the origin or a missing element's id is 0. */
  function EdgeDrawnAsWritten(fromEl: Option<NodeElement>, fromId: JsValue, fromSpot: string,
                              toEl: Option<NodeElement>, toId: JsValue, toSpot: string): (drawn: bool)
    ensures fromEl.None? && !StrictEquals(fromId, Num(0.0)) ==> !drawn
    ensures toEl.None? && !StrictEquals(toId, Num(0.0)) ==> !drawn
    ensures drawn != EdgeDrawn(fromEl, toEl) ==>
              (fromEl.Some? && NodeAnchor(fromEl, fromSpot) == Origin)
              || (toEl.Some? && NodeAnchor(toEl, toSpot) == Origin)
              || (fromEl.None? && StrictEquals(fromId, Num(0.0)))
              || (toEl.None? && StrictEquals(toId, Num(0.0)))
  {
    var a := NodeAnchor(fromEl, fromSpot);
    var b := NodeAnchor(toEl, toSpot);
    !((a == Origin && !StrictEquals(fromId, Num(0.0))) || (b == Origin && !StrictEquals(toId, Num(0.0))))
  }

  /** The guard as written also hides the edge of a node that is on the page but whose
      anchor happens to be the origin: a node placed at "0px"/"0px" anchored at its top-left
      corner. */
  lemma {:induction false} EdgeDrawnAsWrittenHidesNodeAtOrigin()
    ensures !EdgeDrawnAsWritten(Some(NodeElement("0px", "0px", 120, 40)), Str("start"), "TopLeft",
                                Some(NodeElement("300px", "0px", 120, 40)), Str("einschr"), "Left")
  {
    var el := NodeElement("0px", "0px", 120, 40);
    assert IntToString(0) + "px" == "0px";
    BoxOfPlacedElement(0, 0, 120, 40);
    assert BoxOf(el) == Box(0.0, 0.0, 120.0, 40.0);
    assert NodeAnchor(Some(el), "TopLeft") == Origin;
    assert !StrictEquals(Str("start"), Num(0.0));
  }

  /** The guard as intended: an edge is drawn exactly when both nodes have an element. */
  predicate EdgeDrawn(fromEl: Option<NodeElement>, toEl: Option<NodeElement>) {
    fromEl.Some? && toEl.Some?
  }

  /** The route of a drawn edge: None when the edge is skipped. Endpoint shortening
      (`fromShortLength`/`toShortLength`) is not modelled. */
  function EdgeRoute(fromEl: Option<NodeElement>, fromSpot: string, toEl: Option<NodeElement>, toSpot: string,
                     points: Option<seq<Point>>): (r: Option<seq<Point>>)
    ensures r.Some? <==> fromEl.Some? && toEl.Some?
    ensures r.Some? ==> |r.value| >= 2 && r.value[0] == NodeAnchor(fromEl, fromSpot)
    ensures r.Some? ==> r.value[|r.value| - 1] == NodeAnchor(toEl, toSpot)
  {
    if EdgeDrawn(fromEl, toEl) then Some(Route(NodeAnchor(fromEl, fromSpot), NodeAnchor(toEl, toSpot), points))
    else None
  }

  /** With the intended guard, a missing element is exactly what hides an edge; the node
      at the origin of the as-written counterexample keeps its edge. */
  lemma {:induction false} EdgeDrawnKeepsNodeAtOrigin()
    ensures EdgeRoute(Some(NodeElement("0px", "0px", 120, 40)), "TopLeft",
                      Some(NodeElement("300px", "0px", 120, 40)), "Left", None).Some?
    ensures EdgeRoute(None, "TopLeft", Some(NodeElement("300px", "0px", 120, 40)), "Left", None).None?
  {
  }
}

=== FILE: geometry.dfy ===
/** Points and the `"x y"` location strings node records carry (`GeometryUtils` in
    node.js): `parsePoint` reads a location, `stringifyPoint` writes one. */
module Geometry {
  import opened Wrappers
  import opened JsText
  import opened JsValues

  datatype Point = Point(x: real, y: real)

  const Origin := Point(0.0, 0.0)

  /** `Math.round`: the nearest integer, a half rounded up. */
  function Round(v: real): (r: int)
    ensures r as real - 0.5 <= v < r as real + 0.5
  {
    (v + 0.5).Floor
  }

  /** Rounding an integer leaves it unchanged. */
  lemma {:induction false} RoundInteger(i: int)
    ensures Round(i as real) == i
  {
  }

  function RoundPoint(p: Point): Point {
    Point(Round(p.x) as real, Round(p.y) as real)
  }

  function Mid(a: Point, b: Point): Point {
    Point((a.x + b.x) / 2.0, (a.y + b.y) / 2.0)
  }

  /** `parsePoint(str)`: a non-string gives the origin; otherwise the string is split at
      single spaces, the first two pieces are converted with `Number`, and a missing or
      non-numeric piece gives 0. */
  function ParsePoint(v: JsValue): (p: Point)
    ensures !v.Str? ==> p == Origin
  {
    if !v.Str? then Origin
    else
      var tokens := Split(v.s, ' ');
      Point(NumberOr(StringToNumber(tokens[0]), 0.0),
            NumberOr(if |tokens| > 1 then StringToNumber(tokens[1]) else None, 0.0))
  }

  /** What `parsePoint` reads: the first token as x, the second as y (0 when absent),
      and nothing after the second space. */
  lemma {:induction false} ParsePointTokens(a: string, b: string, rest: string)
    requires ' ' !in a && ' ' !in b
    ensures ParsePoint(Str(a)) == Point(NumberOr(StringToNumber(a), 0.0), 0.0)
    ensures ParsePoint(Str(a + " " + b)) == Point(NumberOr(StringToNumber(a), 0.0), NumberOr(StringToNumber(b), 0.0))
    ensures ParsePoint(Str(a + " " + b + " " + rest)) == ParsePoint(Str(a + " " + b))
  {
    SplitCons(a, ' ', b);
    assert a + " " + b + " " + rest == a + [' '] + (b + [' '] + rest);
    SplitCons(a, ' ', b + [' '] + rest);
    SplitCons(b, ' ', rest);
  }

  /** `stringifyPoint(pt)`: `"0 0"` for a missing point, otherwise the rounded
      coordinates separated by one space. Reading the string back gives the rounded point,
      or the origin for a missing one. */
  function StringifyPoint(pt: Option<Point>): (s: string)
    ensures ParsePoint(Str(s)) == if pt.Some? then RoundPoint(pt.value) else Origin
    ensures pt.None? ==> s == "0 0"
  {
    match pt
    case None =>
      assert "0 0" == IntToString(0) + " " + IntToString(0) by {
        assert NatToDigits(0) == "0";
      }
      WrittenPointParses(0, 0);
      "0 0"
    case Some(p) =>
      WrittenPointParses(Round(p.x), Round(p.y));
      IntToString(Round(p.x)) + " " + IntToString(Round(p.y))
  }

  /** Two integers written in decimal and separated by one space read back as the point
      with those coordinates. */
  lemma {:induction false} WrittenPointParses(ix: int, iy: int)
    ensures ParsePoint(Str(IntToString(ix) + " " + IntToString(iy))) == Point(ix as real, iy as real)
  {
    var a, b := IntToString(ix), IntToString(iy);
    ParsePointTokens(a, b, "");
    IntToStringToNumber(ix);
    IntToStringToNumber(iy);
  }

  /** A rounded point writes as the point itself. */
  lemma {:induction false} StringifyRounded(p: Point)
    ensures StringifyPoint(Some(RoundPoint(p))) == StringifyPoint(Some(p))
  {
    RoundInteger(Round(p.x));
    RoundInteger(Round(p.y));
  }

  /** Writing a location is stable: re-writing the point read back from a written
      location gives the same string. */
  lemma {:induction false} StringifyIsStable(pt: Option<Point>)
    ensures StringifyPoint(Some(ParsePoint(Str(StringifyPoint(pt))))) == StringifyPoint(pt)
  {
    var q := ParsePoint(Str(StringifyPoint(pt)));
    var p := if pt.Some? then pt.value else Origin;
    assert q == RoundPoint(p);
    StringifyRounded(p);
    assert StringifyPoint(Some(q)) == StringifyPoint(Some(p));
    if pt.None? {
      ZeroString(p);
    }
  }

  /** The origin writes as a missing point does. */
  lemma {:induction false} ZeroString(p: Point)
    requires p.x == 0.0 && p.y == 0.0
    ensures StringifyPoint(Some(p)) == StringifyPoint(None)
  {
    assert Round(p.x) == 0 && Round(p.y) == 0;
    assert IntToString(0) == "0" by {
      assert NatToDigits(0) == "0";
    }
  }


}

=== FILE: html.dfy ===
/** `escapeHtml` (node.js) and a decoder for the five entities it emits, which serves as
    its inverse: the label text a node shows is the text it was given. */
module Html {

  /** The characters `escapeHtml` rewrites. */
  predicate IsSpecial(c: char) {
    c == '&' || c == '<' || c == '>' || c == '"' || c == '\''
  }

  /** The replacement for one character: its entity when it is special, itself otherwise. */
  function Entity(c: char): (r: string)
    ensures !IsSpecial(c) ==> r == [c]
    ensures IsSpecial(c) ==> |r| >= 4 && r[0] == '&' && r[|r| - 1] == ';'
    ensures forall k :: 0 <= k < |r| ==> r[k] != '<' && r[k] != '>' && r[k] != '"' && r[k] != '\''
  {
    match c
    case '&' => "&amp;"
    case '<' => "&lt;"
    case '>' => "&gt;"
    case '"' => "&quot;"
    case '\'' => "&#39;"
    case _ => [c]
  }

  /** `escapeHtml(s)`: every special character replaced by its entity, every other
      character kept. The result contains no raw `<`, `>`, `"` or `'`. */
  function EscapeHtml(s: string): (r: string)
    ensures forall k :: 0 <= k < |r| ==> r[k] != '<' && r[k] != '>' && r[k] != '"' && r[k] != '\''
    ensures |r| >= |s|
    ensures (forall k :: 0 <= k < |s| ==> !IsSpecial(s[k])) ==> r == s
  {
    if |s| == 0 then "" else Entity(s[0]) + EscapeHtml(s[1..])
  }

  /** Escaping works character by character: it distributes over concatenation. */
  lemma {:induction false} EscapeHtmlAppend(s: string, t: string)
    ensures EscapeHtml(s + t) == EscapeHtml(s) + EscapeHtml(t)
  {
    if |s| > 0 {
      assert (s + t)[0] == s[0] && (s + t)[1..] == s[1..] + t;
      EscapeHtmlAppend(s[1..], t);
      assert EscapeHtml(s + t) == Entity(s[0]) + (EscapeHtml(s[1..]) + EscapeHtml(t));
      assert EscapeHtml(s) == Entity(s[0]) + EscapeHtml(s[1..]);
    } else {
      assert s + t == t;
    }
  }

  /** Decodes the five entities `escapeHtml` produces, left to right; any other text is
      copied unchanged. */
  function UnescapeHtml(t: string): string {
    if |t| == 0 then ""
    else if "&amp;" <= t then "&" + UnescapeHtml(t[5..])
    else if "&lt;" <= t then "<" + UnescapeHtml(t[4..])
    else if "&gt;" <= t then ">" + UnescapeHtml(t[4..])
    else if "&quot;" <= t then "\"" + UnescapeHtml(t[6..])
    else if "&#39;" <= t then "'" + UnescapeHtml(t[5..])
    else [t[0]] + UnescapeHtml(t[1..])
  }

  /** Decoding reads one escaped character off the front. */
  lemma {:induction false} UnescapeEntity(c: char, w: string)
    ensures UnescapeHtml(Entity(c) + w) == [c] + UnescapeHtml(w)
  {
    var t := Entity(c) + w;
    match c
    case '&' => assert "&amp;" <= t && t[5..] == w;
    case '<' => assert t[1] == 'l' && "&lt;" <= t && t[4..] == w;
    case '>' => assert t[1] == 'g' && "&gt;" <= t && t[4..] == w;
    case '"' => assert t[1] == 'q' && "&quot;" <= t && t[6..] == w;
    case '\'' => assert t[1] == '#' && "&#39;" <= t && t[5..] == w;
    case _ =>
      assert t[0] == c && t[1..] == w;
  }

  /** Escaping loses nothing: decoding the escaped text gives the original text. */
  lemma {:induction false} UnescapeEscape(s: string)
    ensures UnescapeHtml(EscapeHtml(s)) == s
  {
    if |s| > 0 {
      UnescapeEntity(s[0], EscapeHtml(s[1..]));
      UnescapeEscape(s[1..]);
    }
  }

  /** Distinct texts stay distinct after escaping. */
  lemma {:induction false} EscapeHtmlInjective(s: string, t: string)
    requires EscapeHtml(s) == EscapeHtml(t)
    ensures s == t
  {
    UnescapeEscape(s);
    UnescapeEscape(t);
  }
}

=== FILE: jstext.dfy ===
/** The JavaScript string operations the editor relies on, over `string` (= seq<char>):
    decimal formatting of integers as template-literal interpolation prints them,
    `String.prototype.split` with a one-character separator, `replace` with a string
    pattern, `includes`, lower-casing, whitespace trimming and the `Number(string)`
    conversion (the StringNumericLiteral grammar of the ECMAScript language). */
module JsText {
  import opened Wrappers

  // ---------- digits and decimal formatting ----------

  predicate IsDigit(c: char) {
    '0' <= c <= '9'
  }

  function DigitValue(c: char): nat
    requires IsDigit(c)
  {
    c as int - '0' as int
  }

  function DigitChar(d: nat): (c: char)
    requires d < 10
    ensures IsDigit(c) && DigitValue(c) == d
  {
    ('0' as int + d) as char
  }

  predicate AllDigits(s: string) {
    forall k :: 0 <= k < |s| ==> IsDigit(s[k])
  }

  /** The value of a run of decimal digits, most significant digit first. */
  function DigitsValue(s: string): nat
    requires AllDigits(s)
  {
    if |s| == 0 then 0 else DigitsValue(s[..|s| - 1]) * 10 + DigitValue(s[|s| - 1])
  }

  /** The decimal digits of n without leading zeros ("0" for zero). */
  function NatToDigits(n: nat): (s: string)
    ensures |s| >= 1 && AllDigits(s)
    ensures s[0] == '0' ==> n == 0 && |s| == 1
  {
    if n < 10 then [DigitChar(n)] else NatToDigits(n / 10) + [DigitChar(n % 10)]
  }

  /** Reading back the digits of n gives n. */
  lemma {:induction false} DigitsValueOfNatToDigits(n: nat)
    ensures DigitsValue(NatToDigits(n)) == n
  {
    if n >= 10 {
      var s := NatToDigits(n);
      assert s[..|s| - 1] == NatToDigits(n / 10);
      DigitsValueOfNatToDigits(n / 10);
    }
  }

  /** An integer as `${i}` prints it: an optional minus sign, then its digits. */
  function IntToString(i: int): (s: string)
    ensures |s| >= 1
    ensures forall k :: 0 <= k < |s| ==> IsDigit(s[k]) || (k == 0 && s[k] == '-')
    ensures IsDigit(s[|s| - 1])
  {
    if i < 0 then "-" + NatToDigits(-i) else NatToDigits(i)
  }

  // ---------- whitespace ----------

  /** The WhiteSpace and LineTerminator code points of the ECMAScript language,
      which `Number` ignores around a numeric literal. */
  predicate IsJsSpace(c: char) {
    || c == '\t' || c == '\n' || c == '\U{000B}' || c == '\U{000C}' || c == '\r'
    || c == ' ' || c == '\U{00A0}' || c == '\U{1680}'
    || ('\U{2000}' <= c <= '\U{200A}')
    || c == '\U{2028}' || c == '\U{2029}' || c == '\U{202F}' || c == '\U{205F}'
    || c == '\U{3000}' || c == '\U{FEFF}'
  }

  function TrimStart(s: string): (r: string)
    ensures |r| <= |s| && r == s[|s| - |r|..]
    ensures |r| > 0 ==> !IsJsSpace(r[0])
    ensures forall k :: 0 <= k < |s| - |r| ==> IsJsSpace(s[k])
  {
    if |s| > 0 && IsJsSpace(s[0]) then TrimStart(s[1..]) else s
  }

  function TrimEnd(s: string): (r: string)
    ensures |r| <= |s| && r == s[..|r|]
    ensures |r| > 0 ==> !IsJsSpace(r[|r| - 1])
    ensures forall k :: |r| <= k < |s| ==> IsJsSpace(s[k])
  {
    if |s| > 0 && IsJsSpace(s[|s| - 1]) then TrimEnd(s[..|s| - 1]) else s
  }

  function Trim(s: string): string {
    TrimEnd(TrimStart(s))
  }

  /** A string that neither starts nor ends with whitespace is its own trim. */
  lemma {:induction false} TrimUnchanged(s: string)
    requires |s| > 0 && !IsJsSpace(s[0]) && !IsJsSpace(s[|s| - 1])
    ensures Trim(s) == s
  {
  }

  // ---------- Number(string) ----------

  function Pow10(n: nat): (p: nat)
    ensures p >= 1
  {
    if n == 0 then 1 else 10 * Pow10(n - 1)
  }

  function ScaleByPow10(v: real, e: int): real {
    if e >= 0 then v * Pow10(e) as real else v / Pow10(-e) as real
  }

  /** The number of leading decimal digits of s. */
  function LeadingDigits(s: string): (n: nat)
    ensures n <= |s| && AllDigits(s[..n])
    ensures n < |s| ==> !IsDigit(s[n])
  {
    if |s| == 0 || !IsDigit(s[0]) then 0
    else
      var m := LeadingDigits(s[1..]);
      assert s[..1 + m] == [s[0]] + s[1..][..m];
      1 + m
  }

  /** The exponent part of a decimal literal (the empty string means exponent 0). */
  function ExponentPart(s: string): Option<int> {
    if |s| == 0 then Some(0)
    else if s[0] != 'e' && s[0] != 'E' then None
    else
      var e := s[1..];
      var signed := |e| > 0 && (e[0] == '-' || e[0] == '+');
      var ds := if signed then e[1..] else e;
      if |ds| > 0 && AllDigits(ds) then
        Some(if signed && e[0] == '-' then -(DigitsValue(ds) as int) else DigitsValue(ds) as int)
      else None
  }

  /** An unsigned decimal literal: digits, an optional fraction, an optional exponent,
      with at least one digit before or after the point. */
  function UnsignedDecimal(u: string): Option<real> {
    var i := LeadingDigits(u);
    AfterIntegerPart(u[..i], u[i..])
  }

  /** The literal's remainder after its integer digits: an optional `.digits` fraction,
      then the exponent part. */
  function AfterIntegerPart(intDigits: string, afterInt: string): Option<real>
    requires AllDigits(intDigits)
  {
    if |afterInt| > 0 && afterInt[0] == '.' then
      var f := afterInt[1..];
      var j := LeadingDigits(f);
      WithExponent(intDigits, f[..j], f[j..])
    else WithExponent(intDigits, [], afterInt)
  }

  function WithExponent(intDigits: string, fracDigits: string, rest: string): Option<real>
    requires AllDigits(intDigits) && AllDigits(fracDigits)
  {
    if |intDigits| == 0 && |fracDigits| == 0 then None
    else
      match ExponentPart(rest)
      case None => None
      case Some(e) =>
        var mantissa := DigitsValue(intDigits) as real + DigitsValue(fracDigits) as real / Pow10(|fracDigits|) as real;
        Some(ScaleByPow10(mantissa, e))
  }

  function SignedDecimal(t: string): Option<real> {
    if |t| > 0 && (t[0] == '-' || t[0] == '+') then
      match UnsignedDecimal(t[1..])
      case None => None
      case Some(v) => Some(if t[0] == '-' then -v else v)
    else UnsignedDecimal(t)
  }

  /** The radix a `0x`/`0o`/`0b` prefix letter selects, 0 for any other letter. */
  function RadixOf(c: char): nat {
    if c == 'x' || c == 'X' then 16
    else if c == 'o' || c == 'O' then 8
    else if c == 'b' || c == 'B' then 2
    else 0
  }

  /** The value of c as a digit of base 16 or less, or 16 when c is no such digit. */
  function HexValue(c: char): (v: nat)
    ensures v <= 16
  {
    if '0' <= c <= '9' then c as int - '0' as int
    else if 'a' <= c <= 'f' then c as int - 'a' as int + 10
    else if 'A' <= c <= 'F' then c as int - 'A' as int + 10
    else 16
  }

  predicate AllRadixDigits(s: string, radix: nat) {
    forall k :: 0 <= k < |s| ==> HexValue(s[k]) < radix
  }

  function RadixValue(s: string, radix: nat): nat
    requires AllRadixDigits(s, radix)
  {
    if |s| == 0 then 0 else RadixValue(s[..|s| - 1], radix) * radix + HexValue(s[|s| - 1])
  }

  /** `Number(s)` for a string s: None stands for NaN. Surrounding whitespace is
      ignored and the empty (or all-blank) string is 0. */
  function StringToNumber(s: string): Option<real> {
    var t := Trim(s);
    if |t| == 0 then Some(0.0)
    else if |t| >= 2 && t[0] == '0' && RadixOf(t[1]) != 0 then
      var ds := t[2..];
      if |ds| > 0 && AllRadixDigits(ds, RadixOf(t[1])) then Some(RadixValue(ds, RadixOf(t[1])) as real) else None
    else SignedDecimal(t)
  }

  /** A digit run is its own leading-digit prefix. */
  lemma {:induction false} LeadingDigitsAll(s: string)
    requires AllDigits(s)
    ensures LeadingDigits(s) == |s|
  {
    if |s| > 0 {
      LeadingDigitsAll(s[1..]);
    }
  }

  /** `Number` reads a non-empty run of decimal digits as its decimal value. */
  lemma {:induction false} DigitsToNumber(s: string)
    requires |s| > 0 && AllDigits(s)
    ensures StringToNumber(s) == Some(DigitsValue(s) as real)
  {
    TrimUnchanged(s);
    assert |s| >= 2 ==> RadixOf(s[1]) == 0;
    UnsignedDigits(s);
    assert SignedDecimal(s) == UnsignedDecimal(s);
  }

  /** An unsigned literal with neither fraction nor exponent is its digits' value. */
  lemma {:induction false} UnsignedDigits(u: string)
    requires |u| > 0 && AllDigits(u)
    ensures UnsignedDecimal(u) == Some(DigitsValue(u) as real)
  {
    LeadingDigitsAll(u);
    assert u[..|u|] == u;
    assert u[|u|..] == [];
    PlainMantissa(u);
  }

  lemma {:induction false} PlainMantissa(d: string)
    requires |d| > 0 && AllDigits(d)
    ensures WithExponent(d, [], []) == Some(DigitsValue(d) as real)
  {
    assert ExponentPart([]) == Some(0);
    assert DigitsValue([]) == 0;
    assert Pow10(0) == 1;
  }

  /** A literal without surrounding blanks and without a radix prefix is read as a signed
      decimal. */
  lemma {:induction false} NumberOfSignedDecimal(t: string)
    requires |t| > 0 && !IsJsSpace(t[0]) && !IsJsSpace(t[|t| - 1]) && t[0] != '0'
    ensures StringToNumber(t) == SignedDecimal(t)
  {
    TrimUnchanged(t);
  }

  /** A minus sign followed by a non-empty digit run is the negated value. */
  lemma {:induction false} SignedDecimalNegated(ds: string)
    requires |ds| > 0 && AllDigits(ds)
    ensures SignedDecimal("-" + ds) == Some(-(DigitsValue(ds) as real))
  {
    var t := "-" + ds;
    assert t[0] == '-';
    assert t[1..] == ds;
    UnsignedDigits(ds);
    var u := UnsignedDecimal(t[1..]);
    assert u == Some(DigitsValue(ds) as real);
  }

  /** `Number` reads a minus sign followed by a non-empty digit run of value v as -v. */
  lemma {:induction false} NegatedDigitsToNumber(ds: string, v: real)
    requires |ds| > 0 && AllDigits(ds) && DigitsValue(ds) as real == v
    ensures StringToNumber("-" + ds) == Some(-v)
  {
    var s := "-" + ds;
    assert s[|s| - 1] == ds[|ds| - 1];
    NumberOfSignedDecimal(s);
    SignedDecimalNegated(ds);
  }

  /** `Number` reads the decimal digits of n as n. */
  lemma {:induction false} NatToDigitsToNumber(n: nat)
    ensures StringToNumber(NatToDigits(n)) == Some(n as real)
  {
    DigitsValueOfNatToDigits(n);
    DigitsToNumber(NatToDigits(n));
  }

  /** `Number` reads the decimal form of a negative integer as that integer. */
  lemma {:induction false} NegativeToNumber(i: int)
    requires i < 0
    ensures StringToNumber("-" + NatToDigits(-i)) == Some(i as real)
  {
    var ds := NatToDigits(-i);
    DigitsValueOfNatToDigits(-i);
    assert DigitsValue(ds) as real == (-i) as real;
    NegatedDigitsToNumber(ds, (-i) as real);
    assert -((-i) as real) == i as real;
  }

  /** `Number(`${i}`)` gives back i: the decimal form of an integer reads as that integer. */
  lemma {:induction false} IntToStringToNumber(i: int)
    ensures StringToNumber(IntToString(i)) == Some(i as real)
  {
    if i < 0 {
      NegativeToNumber(i);
    } else {
      assert IntToString(i) == NatToDigits(i);
      NatToDigitsToNumber(i);
    }
  }

  // ---------- split / join ----------

  function FirstIndexOf(s: string, c: char): (i: nat)
    requires c in s
    ensures i < |s| && s[i] == c && c !in s[..i]
  {
    if s[0] == c then 0
    else
      var j := FirstIndexOf(s[1..], c);
      assert s[..j + 1] == [s[0]] + s[1..][..j];
      j + 1
  }

  /** `s.split(sep)`: the pieces between occurrences of sep, empty pieces included. */
  function Split(s: string, sep: char): (parts: seq<string>)
    ensures |parts| >= 1
    ensures forall k :: 0 <= k < |parts| ==> sep !in parts[k]
    decreases |s|
  {
    if sep !in s then [s]
    else
      var i := FirstIndexOf(s, sep);
      [s[..i]] + Split(s[i + 1..], sep)
  }

  /** `parts.join(sep)`. */
  function Join(parts: seq<string>, sep: char): string {
    if |parts| == 0 then ""
    else if |parts| == 1 then parts[0]
    else parts[0] + [sep] + Join(parts[1..], sep)
  }

  /** Splitting at the first separator peels off the piece before it. */
  lemma {:induction false} SplitCons(a: string, sep: char, b: string)
    requires sep !in a
    ensures Split(a + [sep] + b, sep) == [a] + Split(b, sep)
  {
    var s := a + [sep] + b;
    assert s[|a|] == sep;
    var i := FirstIndexOf(s, sep);
    assert s[..i] == a;
    assert s[i + 1..] == b;
  }

  /** Joining a first piece with at least one more puts the separator between them. */
  lemma {:induction false} JoinCons(first: string, rest: seq<string>, sep: char)
    requires |rest| >= 1
    ensures Join([first] + rest, sep) == first + [sep] + Join(rest, sep)
  {
    assert ([first] + rest)[0] == first;
    assert ([first] + rest)[1..] == rest;
  }

  /** Split undoes Join when no piece contains the separator. */
  lemma {:induction false} SplitJoin(parts: seq<string>, sep: char)
    requires |parts| >= 1
    requires forall k :: 0 <= k < |parts| ==> sep !in parts[k]
    ensures Split(Join(parts, sep), sep) == parts
  {
    if |parts| > 1 {
      var rest := parts[1..];
      assert parts == [parts[0]] + rest;
      assert forall k :: 0 <= k < |rest| ==> sep !in rest[k];
      SplitJoin(rest, sep);
      JoinCons(parts[0], rest, sep);
      SplitCons(parts[0], sep, Join(rest, sep));
    }
  }

  /** Join undoes Split. */
  lemma {:induction false} JoinSplit(s: string, sep: char)
    ensures Join(Split(s, sep), sep) == s
    decreases |s|
  {
    if sep in s {
      var i := FirstIndexOf(s, sep);
      var rest := Split(s[i + 1..], sep);
      assert Split(s, sep) == [s[..i]] + rest;
      JoinSplit(s[i + 1..], sep);
      JoinCons(s[..i], rest, sep);
      assert s == s[..i] + [sep] + s[i + 1..];
    }
  }

  // ---------- replace / includes / lower-case ----------

  /** `s.replace(pat, rep)` with a string pattern: only the first occurrence is replaced. */
  function ReplaceFirst(s: string, pat: string, rep: string): string {
    if |pat| == 0 then rep + s
    else if |s| < |pat| then s
    else if s[..|pat|] == pat then rep + s[|pat|..]
    else [s[0]] + ReplaceFirst(s[1..], pat, rep)
  }

  /** When no character of a can start the pattern, the first occurrence in
      a + pat + b is the one right after a. */
  lemma {:induction false} ReplaceFirstAfter(a: string, pat: string, rep: string, b: string)
    requires |pat| > 0
    requires forall k :: 0 <= k < |a| ==> a[k] != pat[0]
    ensures ReplaceFirst(a + pat + b, pat, rep) == a + rep + b
  {
    var s := a + pat + b;
    if |a| == 0 {
      assert s == pat + b;
      assert s[..|pat|] == pat;
      assert s[|pat|..] == b;
    } else {
      assert s[..|pat|][0] == a[0] != pat[0];
      assert s[..|pat|] != pat;
      var a' := a[1..];
      forall k | 0 <= k < |a'|
        ensures a'[k] != pat[0]
      {
        assert a'[k] == a[k + 1];
      }
      ReplaceFirstAfter(a', pat, rep, b);
      assert s[1..] == a' + pat + b;
      assert a + rep + b == [a[0]] + (a' + rep + b);
    }
  }

  /** `s.includes(sub)`. */
  function Contains(s: string, sub: string): bool
    decreases |s|
  {
    if |sub| == 0 then true
    else if |s| < |sub| then false
    else s[..|sub|] == sub || Contains(s[1..], sub)
  }

  /** sub occurs in s starting at position k. */
  predicate OccursAt(s: string, sub: string, k: int) {
    0 <= k <= |s| - |sub| && s[k..k + |sub|] == sub
  }

  /** `s.includes(sub)` holds exactly when sub occurs in s at some position. */
  lemma {:induction false} ContainsOccurs(s: string, sub: string)
    ensures Contains(s, sub) <==> exists k :: OccursAt(s, sub, k)
    decreases |s|
  {
    if |sub| == 0 {
      assert OccursAt(s, sub, 0);
    } else if |s| >= |sub| {
      ContainsOccurs(s[1..], sub);
      if s[..|sub|] == sub {
        assert OccursAt(s, sub, 0);
      } else if Contains(s[1..], sub) {
        var k :| OccursAt(s[1..], sub, k);
        assert s[1..][k..k + |sub|] == s[k + 1..k + 1 + |sub|];
        assert OccursAt(s, sub, k + 1);
      } else {
        forall k | OccursAt(s, sub, k)
          ensures false
        {
          if k > 0 {
            assert s[1..][k - 1..k - 1 + |sub|] == s[k..k + |sub|];
            assert OccursAt(s[1..], sub, k - 1);
          }
        }
      }
    }
  }

  function AsciiLowerChar(c: char): char {
    if 'A' <= c <= 'Z' then (c as int + 32) as char else c
  }

  /** Lower-casing of the ASCII letters; every other character is kept. */
  function AsciiLower(s: string): (r: string)
    ensures |r| == |s|
    ensures forall k :: 0 <= k < |s| ==> r[k] == AsciiLowerChar(s[k])
  {
    seq(|s|, k requires 0 <= k < |s| => AsciiLowerChar(s[k]))
  }
}

=== FILE: jsvalues.dfy ===
/** JavaScript values as the editor's node records hold them, and the language
    operations the modelled code applies to them: truthiness, `Number(v)`, own-property
    reads, strict equality and `Object.entries`. */
module JsValues {
  import opened Wrappers
  import opened JsText

  /** A JavaScript value. Numbers are finite reals or NaN; an object's fields are its own
      enumerable properties in the language's enumeration order; a function is identified
      by its source text. */
  datatype JsValue =
    | Undefined
    | Null
    | Bool(b: bool)
    | Num(n: real)
    | NaN
    | Str(s: string)
    | Func(source: string)
    | Arr(items: seq<JsValue>)
    | Obj(fields: seq<Field>)

  datatype Field = Field(key: string, value: JsValue)

  /** `undefined` or `null`: reading a property of these throws a TypeError. */
  predicate Nullish(v: JsValue) {
    v.Undefined? || v.Null?
  }

  /** The value's truthiness, as `if (v)`, `v && …` and `v || …` test it. */
  predicate Truthy(v: JsValue)
    ensures Truthy(v) ==> !Nullish(v)
  {
    match v
    case Undefined => false
    case Null => false
    case Bool(b) => b
    case Num(n) => n != 0.0
    case NaN => false
    case Str(s) => |s| > 0
    case Func(_) => true
    case Arr(_) => true
    case Obj(_) => true
  }

  /** `Number(v)`; None stands for NaN. An object converts through its string form
      `"[object Object]"`, an array through `items.join(",")`: the empty array is 0,
      an array of two or more items contains a comma and is NaN, and a one-item array
      converts as its item's string form does. */
  function ToNumber(v: JsValue): Option<real> {
    match v
    case Undefined => None
    case Null => Some(0.0)
    case Bool(b) => Some(if b then 1.0 else 0.0)
    case Num(n) => Some(n)
    case NaN => None
    case Str(s) => StringToNumber(s)
    case Func(_) => None
    case Obj(_) => None
    case Arr(items) =>
      if |items| == 0 then Some(0.0)
      else if |items| > 1 then None
      else
        match items[0]
        case Undefined => Some(0.0)
        case Null => Some(0.0)
        case Bool(_) => None
        case other => ToNumber(other)
  }

  /** `n || fallback` for a number n: NaN and zero give the fallback. */
  function NumberOr(n: Option<real>, fallback: real): real {
    match n
    case None => fallback
    case Some(v) => if v == 0.0 then fallback else v
  }

  predicate DistinctKeys(fields: seq<Field>) {
    forall i, j :: 0 <= i < j < |fields| ==> fields[i].key != fields[j].key
  }

  /** The value stored under key, or `undefined` when no field has that key. */
  function Lookup(fields: seq<Field>, key: string): JsValue {
    if |fields| == 0 then Undefined
    else if fields[0].key == key then fields[0].value
    else Lookup(fields[1..], key)
  }

  /** The array index a property key denotes: a canonical decimal numeral. */
  function ArrayIndex(key: string): Option<nat> {
    if |key| > 0 && AllDigits(key) && (key == "0" || key[0] != '0') then Some(DigitsValue(key)) else None
  }

  /** `v[key]` for a value that is neither undefined nor null: own data properties,
      array and string indices and their `length`. Inherited properties are not modelled. */
  function Get(v: JsValue, key: string): JsValue
    requires !Nullish(v)
  {
    match v
    case Obj(fields) => Lookup(fields, key)
    case Arr(items) =>
      if key == "length" then Num(|items| as real)
      else (
        match ArrayIndex(key)
        case Some(i) => if i < |items| then items[i] else Undefined
        case None => Undefined)
    case Str(s) =>
      if key == "length" then Num(|s| as real)
      else (
        match ArrayIndex(key)
        case Some(i) => if i < |s| then Str([s[i]]) else Undefined
        case None => Undefined)
    case _ => Undefined
  }

  /** `a === b`, with objects compared by content rather than by reference. */
  predicate StrictEquals(a: JsValue, b: JsValue) {
    a == b && !a.NaN?
  }

  /** `Object.entries(v)`: own enumerable string-keyed properties in order. */
  function Entries(v: JsValue): Result<seq<Field>> {
    match v
    case Undefined => TypeError("Cannot convert undefined or null to object")
    case Null => TypeError("Cannot convert undefined or null to object")
    case Obj(fields) => Ok(fields)
    case Arr(items) => Ok(seq(|items|, i requires 0 <= i < |items| => Field(NatToDigits(i), items[i])))
    case Str(s) => Ok(seq(|s|, i requires 0 <= i < |s| => Field(NatToDigits(i), Str([s[i]]))))
    case _ => Ok([])
  }
}

=== FILE: simulation.dfy ===
/** `runSimulation(nodes)` (runsimlaiton_funktin.js): the choice of the start node and
    the walk that follows each node's first connection until it reaches a node whose id
    it has already visited, or no node at all. The result is the list of ids the timer
    then highlights one after another. */
module Simulation {
  import opened Wrappers
  import opened JsText
  import opened JsValues

  /** The five characters from position k of tag spell "start", ignoring ASCII case. */
  ghost predicate StartAt(tag: string, k: int) {
    0 <= k <= |tag| - 5 && forall j :: 0 <= j < 5 ==> AsciiLowerChar(tag[k + j]) == "start"[j]
  }

  /** The tag test of the start search, `(n.tag || '').toLowerCase().includes('start')`:
      reading `tag` of undefined or null throws, and so does calling `toLowerCase` on a
      truthy tag that is not a string. */
  function StartTagged(n: JsValue): (r: Result<bool>)
    ensures r.TypeError? <==> Nullish(n) || (Truthy(Get(n, "tag")) && !Get(n, "tag").Str?)
    ensures r == Ok(true) <==> !Nullish(n) && Get(n, "tag").Str? && exists k :: StartAt(Get(n, "tag").s, k)
  {
    if Nullish(n) then TypeError("Cannot read properties of " + (if n.Null? then "null" else "undefined"))
    else
      var tag := Get(n, "tag");
      if !Truthy(tag) then Ok(false)
      else if !tag.Str? then TypeError("toLowerCase is not a function")
      else
        LowerContainsStart(tag.s);
        Ok(Contains(AsciiLower(tag.s), "start"))
  }

  /** Searching the lower-cased tag is searching the tag case-insensitively. */
  lemma {:induction false} LowerContainsStart(tag: string)
    ensures Contains(AsciiLower(tag), "start") <==> exists k :: StartAt(tag, k)
  {
    var low := AsciiLower(tag);
    ContainsOccurs(low, "start");
    forall k | 0 <= k <= |tag| - 5
      ensures OccursAt(low, "start", k) <==> StartAt(tag, k)
    {
      assert low[k..k + 5] == AsciiLower(tag[k..k + 5]);
    }
  }

  /** A node the tag test accepts is an object, and so truthy: the `|| nodes[0]` after the
      search only applies when the search finds nothing. */
  lemma {:induction false} StartTaggedIsObject(n: JsValue)
    requires StartTagged(n) == Ok(true)
    ensures n.Obj? && Truthy(n)
  {
  }

  /** Each result from index from up to to is a rejection that did not throw. */
  ghost predicate RejectsAll(ts: seq<Result<bool>>, from: nat, to: nat)
    requires from <= to <= |ts|
  {
    forall k :: from <= k < to ==> ts[k] == Ok(false)
  }

  /** The search of `find` over the outcomes ts of a test, from index `from` on: the
      first accepted index, None when every outcome is a rejection, or the first error. */
  function FindFirst(ts: seq<Result<bool>>, from: nat): (r: Result<Option<nat>>)
    requires from <= |ts|
    ensures r.Ok? && r.value.Some? ==>
              from <= r.value.value < |ts| && ts[r.value.value] == Ok(true) && RejectsAll(ts, from, r.value.value)
    ensures r == Ok(None) <==> RejectsAll(ts, from, |ts|)
    ensures r.TypeError? <==> exists k :: from <= k < |ts| && ts[k].TypeError? && RejectsAll(ts, from, k)
    decreases |ts| - from
  {
    if from == |ts| then Ok(None)
    else if ts[from].TypeError? then
      assert RejectsAll(ts, from, from);
      TypeError(ts[from].reason)
    else if ts[from].value then Ok(Some(from))
    else
      var rest := FindFirst(ts, from + 1);
      assert RejectsAll(ts, from, |ts|) <==> RejectsAll(ts, from + 1, |ts|);
      assert rest.TypeError? ==> exists k :: from <= k < |ts| && ts[k].TypeError? && RejectsAll(ts, from, k);
      rest
  }

  /** The outcome of the tag test on each node. */
  function Tags(nodes: seq<JsValue>): (ts: seq<Result<bool>>)
    ensures |ts| == |nodes| && forall k :: 0 <= k < |nodes| ==> ts[k] == StartTagged(nodes[k])
  {
    seq(|nodes|, k requires 0 <= k < |nodes| => StartTagged(nodes[k]))
  }

  /** `nodes.find(…)` with the tag test: the index of the first node the test accepts,
      None when it accepts none, or the TypeError of the first node the test throws on. */
  function FindStart(nodes: seq<JsValue>): (r: Result<Option<nat>>)
    ensures r.Ok? && r.value.Some? ==>
              && r.value.value < |nodes|
              && StartTagged(nodes[r.value.value]) == Ok(true)
              && forall k :: 0 <= k < r.value.value ==> StartTagged(nodes[k]) == Ok(false)
    ensures r == Ok(None) <==> forall k :: 0 <= k < |nodes| ==> StartTagged(nodes[k]) == Ok(false)
    ensures r.TypeError? <==>
              exists k :: 0 <= k < |nodes| && StartTagged(nodes[k]).TypeError?
                          && forall j :: 0 <= j < k ==> StartTagged(nodes[j]) == Ok(false)
  {
    var ts := Tags(nodes);
    var r := FindFirst(ts, 0);
    assert r.TypeError? ==> exists k :: 0 <= k < |nodes| && StartTagged(nodes[k]).TypeError?
                                        && forall j :: 0 <= j < k ==> StartTagged(nodes[j]) == Ok(false);
    r
  }

  /** `startNode`: the first start-tagged node, or else `nodes[0]`. */
  function StartNode(nodes: seq<JsValue>): (r: Result<JsValue>)
    requires |nodes| > 0
    ensures r.TypeError? <==> FindStart(nodes).TypeError?
    ensures r.Ok? ==> r.value in nodes
    ensures r.Ok? && StartTagged(r.value) != Ok(true) ==> r.value == nodes[0]
    ensures FindStart(nodes) == Ok(None) ==> r == Ok(nodes[0])
    ensures forall k :: 0 <= k < |nodes| && StartTagged(nodes[k]) == Ok(true) && (forall j :: 0 <= j < k ==> StartTagged(nodes[j]) == Ok(false)) ==> r == Ok(nodes[k])
  {
    match FindStart(nodes)
    case TypeError(e) => TypeError(e)
    case Ok(found) => Ok(if found.Some? then nodes[found.value] else nodes[0])
  }

  /** `(current.connections && current.connections[0]) || undefined`: the id the walk
      moves to, or undefined when there is none. */
  function FirstConnection(cur: JsValue): (r: JsValue)
    requires !Nullish(cur)
    ensures Truthy(r) || r == Undefined
    ensures !Truthy(Get(cur, "connections")) ==> r == Undefined
    ensures Get(cur, "connections").Arr? && |Get(cur, "connections").items| == 0 ==> r == Undefined
    ensures Get(cur, "connections").Arr? && |Get(cur, "connections").items| > 0 ==>
              r == (if Truthy(Get(cur, "connections").items[0]) then Get(cur, "connections").items[0] else Undefined)
  {
    var conns := Get(cur, "connections");
    var first := if Truthy(conns) then Get(conns, "0") else conns;
    if Truthy(first) then first else Undefined
  }

  /** Node n answers to id in `getNode`: `n && n.id === id`. */
  predicate HasId(n: JsValue, id: JsValue) {
    Truthy(n) && StrictEquals(Get(n, "id"), id)
  }

  /** The index of the first node from `from` on that answers to id. */
  function FindNode(nodes: seq<JsValue>, id: JsValue, from: nat): (r: Option<nat>)
    requires from <= |nodes|
    ensures r.Some? ==> from <= r.value < |nodes| && HasId(nodes[r.value], id)
                        && forall j :: from <= j < r.value ==> !HasId(nodes[j], id)
    ensures r.None? <==> forall k :: from <= k < |nodes| ==> !HasId(nodes[k], id)
    decreases |nodes| - from
  {
    if from == |nodes| then None
    else if HasId(nodes[from], id) then Some(from)
    else FindNode(nodes, id, from + 1)
  }

  /** `getNode(id)`: the first node that answers to id, or undefined. */
  function GetNode(nodes: seq<JsValue>, id: JsValue): (r: JsValue)
    ensures r == Undefined <==> forall k :: 0 <= k < |nodes| ==> !HasId(nodes[k], id)
    ensures r != Undefined ==> r in nodes && HasId(r, id)
    ensures forall k :: 0 <= k < |nodes| && HasId(nodes[k], id) && (forall j :: 0 <= j < k ==> !HasId(nodes[j], id)) ==> r == nodes[k]
  {
    match FindNode(nodes, id, 0)
    case None => Undefined
    case Some(i) => nodes[i]
  }

  /** The node the walk moves to from a truthy node: `getNode` of its first connection,
      looked up here through FindNode (NextIsFirstMatch shows it is GetNode's answer). */
  function Next(nodes: seq<JsValue>, cur: JsValue): (r: JsValue)
    requires Truthy(cur)
    ensures r == Undefined || (r in nodes && Truthy(r))
    ensures r != Undefined ==> StrictEquals(Get(r, "id"), FirstConnection(cur))
  {
    var id := FirstConnection(cur);
    if !Truthy(id) then Undefined
    else
      match FindNode(nodes, id, 0)
      case None => Undefined
      case Some(i) => nodes[i]
  }

  /** The walk stops after cur exactly when cur has no truthy first connection or no node
      answers to it; otherwise it moves to the first node that answers to it. */
  lemma {:induction false} NextIsFirstMatch(nodes: seq<JsValue>, cur: JsValue)
    requires Truthy(cur)
    ensures Truthy(FirstConnection(cur)) ==> Next(nodes, cur) == GetNode(nodes, FirstConnection(cur))
    ensures Next(nodes, cur) == Undefined <==>
              !Truthy(FirstConnection(cur)) || forall k :: 0 <= k < |nodes| ==> !HasId(nodes[k], FirstConnection(cur))
    ensures Truthy(FirstConnection(cur)) ==>
              forall k :: 0 <= k < |nodes| && HasId(nodes[k], FirstConnection(cur)) && (forall j :: 0 <= j < k ==> !HasId(nodes[j], FirstConnection(cur))) ==> Next(nodes, cur) == nodes[k]
  {
    var id := FirstConnection(cur);
    if Truthy(id) {
      assert Next(nodes, cur) == GetNode(nodes, id);
    }
  }

  /** The ids of the visited nodes, in visiting order. */
  function PathOf(walked: seq<JsValue>): (path: seq<JsValue>)
    requires forall k :: 0 <= k < |walked| ==> Truthy(walked[k])
    ensures |path| == |walked|
    ensures forall k :: 0 <= k < |walked| ==> Truthy(walked[k]) && path[k] == Get(walked[k], "id")
  {
    seq(|walked|, k requires 0 <= k < |walked| && Truthy(walked[k]) => Get(walked[k], "id"))
  }

  predicate Distinct(s: seq<JsValue>) {
    forall i, j :: 0 <= i < j < |s| ==> s[i] != s[j]
  }

  /** The ids of the truthy nodes: every id the walk can visit. */
  ghost function NodeIds(nodes: seq<JsValue>): set<JsValue> {
    set n | n in nodes && Truthy(n) :: Get(n, "id")
  }

  /** The node the walk looks at after walked: start before the first step, otherwise the
      node the last visited node's first connection names. */
  function After(nodes: seq<JsValue>, start: JsValue, walked: seq<JsValue>): JsValue
    requires |walked| > 0 ==> Truthy(walked[|walked| - 1])
  {
    if |walked| == 0 then start else Next(nodes, walked[|walked| - 1])
  }

  /** walked is a beginning of the walk from start: it begins at start, each node is the
      one its predecessor's first connection names, and no id repeats. */
  ghost predicate WalkPrefix(nodes: seq<JsValue>, start: JsValue, walked: seq<JsValue>) {
    && (forall k :: 0 <= k < |walked| ==> Truthy(walked[k]))
    && (|walked| > 0 ==> walked[0] == start)
    && (forall k :: 0 <= k < |walked| - 1 ==> walked[k + 1] == Next(nodes, walked[k]))
    && Distinct(PathOf(walked))
  }

  /** walked is the walk from start: a beginning of it after which the next node is
      missing or has an id already visited. */
  ghost predicate IsWalk(nodes: seq<JsValue>, start: JsValue, walked: seq<JsValue>) {
    && WalkPrefix(nodes, start, walked)
    && var after := After(nodes, start, walked);
       !Truthy(after) || Get(after, "id") in PathOf(walked)
  }

  /** One turn of the loop extends the walk by the node it looks at. */
  lemma {:induction false} WalkStep(nodes: seq<JsValue>, start: JsValue, walked: seq<JsValue>)
    requires WalkPrefix(nodes, start, walked)
    requires Truthy(After(nodes, start, walked)) && Get(After(nodes, start, walked), "id") !in PathOf(walked)
    ensures WalkPrefix(nodes, start, walked + [After(nodes, start, walked)])
    ensures PathOf(walked + [After(nodes, start, walked)]) == PathOf(walked) + [Get(After(nodes, start, walked), "id")]
  {
    var next := After(nodes, start, walked);
    ChainStep(nodes, walked, next);
    PathStep(walked, next);
  }

  /** Appending the successor of the last node keeps every node the successor of the one
      before it. */
  lemma {:induction false} ChainStep(nodes: seq<JsValue>, walked: seq<JsValue>, next: JsValue)
    requires forall k :: 0 <= k < |walked| ==> Truthy(walked[k])
    requires forall k :: 0 <= k < |walked| - 1 ==> walked[k + 1] == Next(nodes, walked[k])
    requires |walked| > 0 ==> next == Next(nodes, walked[|walked| - 1])
    ensures forall k :: 0 <= k < |walked| ==> (walked + [next])[k] == walked[k]
    ensures forall k :: 0 <= k < |walked| ==> (walked + [next])[k + 1] == Next(nodes, (walked + [next])[k])
  {
    var succ := seq(|walked|, k requires 0 <= k < |walked| && Truthy(walked[k]) => Next(nodes, walked[k]));
    AppendFollows(walked, next, succ);
  }

  /** s follows succ (each element after the first is the successor of the one before),
      and x is the successor of the last element: then s + [x] follows succ. */
  lemma {:induction false} AppendFollows<T>(s: seq<T>, x: T, succ: seq<T>)
    requires |succ| == |s|
    requires forall k :: 0 <= k < |s| - 1 ==> s[k + 1] == succ[k]
    requires |s| > 0 ==> x == succ[|s| - 1]
    ensures forall k :: 0 <= k < |s| ==> (s + [x])[k] == s[k]
    ensures forall k :: 0 <= k < |s| ==> (s + [x])[k + 1] == succ[k]
  {
    var w := s + [x];
    forall k | 0 <= k < |s|
      ensures w[k + 1] == succ[k]
    {
      if k < |s| - 1 {
        assert w[k + 1] == s[k + 1];
      }
    }
  }


  /** Appending a truthy node whose id is new extends the id path by that id and keeps the
      ids distinct. */
  lemma {:induction false} PathStep(walked: seq<JsValue>, next: JsValue)
    requires forall k :: 0 <= k < |walked| ==> Truthy(walked[k])
    requires Truthy(next) && Get(next, "id") !in PathOf(walked)
    requires Distinct(PathOf(walked))
    ensures forall k :: 0 <= k < |walked| + 1 ==> Truthy((walked + [next])[k])
    ensures PathOf(walked + [next]) == PathOf(walked) + [Get(next, "id")]
    ensures Distinct(PathOf(walked + [next]))
  {
    var w := walked + [next];
    assert forall k :: 0 <= k < |walked| ==> w[k] == walked[k];
    assert PathOf(w) == PathOf(walked) + [Get(next, "id")];
  }

  /** The state of the loop after walking walked: the ids visited so far, the set of them,
      and the node looked at next. */
  ghost predicate LoopState(nodes: seq<JsValue>, start: JsValue, walked: seq<JsValue>,
                            path: seq<JsValue>, visited: set<JsValue>, current: JsValue) {
    && WalkPrefix(nodes, start, walked)
    && path == PathOf(walked)
    && current == After(nodes, start, walked)
    && (current in nodes || current == Undefined)
    && (forall x :: x in visited <==> x in path)
    && |visited| == |path|
    && visited <= NodeIds(nodes)
  }

  /** One turn of the loop keeps its state and visits one more id of the nodes. */
  lemma {:induction false} LoopStep(nodes: seq<JsValue>, start: JsValue, walked: seq<JsValue>,
                                    path: seq<JsValue>, visited: set<JsValue>, current: JsValue)
    requires LoopState(nodes, start, walked, path, visited, current)
    requires Truthy(current) && Get(current, "id") !in visited
    ensures LoopState(nodes, start, walked + [current], path + [Get(current, "id")],
                      visited + {Get(current, "id")}, Next(nodes, current))
    ensures |NodeIds(nodes) - (visited + {Get(current, "id")})| < |NodeIds(nodes) - visited|
  {
    var id := Get(current, "id");
    var w := walked + [current];
    WalkStep(nodes, start, walked);
    assert After(nodes, start, w) == Next(nodes, current) by {
      assert w[|w| - 1] == current;
    }
    assert current in nodes;
    assert id in NodeIds(nodes);
    VisitOne(NodeIds(nodes), visited, path, id);
  }

  /** Adding an id of the nodes not yet visited to the visited set and the path. */
  lemma {:induction false} VisitOne(ids: set<JsValue>, visited: set<JsValue>, path: seq<JsValue>, id: JsValue)
    requires (forall x :: x in visited <==> x in path) && |visited| == |path| && visited <= ids
    requires id in ids && id !in visited
    ensures forall x :: x in visited + {id} <==> x in path + [id]
    ensures |visited + {id}| == |path + [id]| && visited + {id} <= ids
    ensures |ids - (visited + {id})| < |ids - visited|
  {
    assert ids - (visited + {id}) == (ids - visited) - {id};
  }

  /** The `while` loop of `runSimulation`, from start. */
  method Walk(nodes: seq<JsValue>, start: JsValue) returns (path: seq<JsValue>, walked: seq<JsValue>)
    requires start in nodes
    ensures IsWalk(nodes, start, walked)
    ensures path == PathOf(walked)
    ensures |path| <= |NodeIds(nodes)|
  {
    var visited: set<JsValue> := {};
    var current := start;
    path, walked := [], [];
    while Truthy(current) && Get(current, "id") !in visited
      invariant LoopState(nodes, start, walked, path, visited, current)
      decreases |NodeIds(nodes) - visited|
    {
      LoopStep(nodes, start, walked, path, visited, current);
      var id := Get(current, "id");
      path := path + [id];
      walked := walked + [current];
      visited := visited + {id};
      current := Next(nodes, current);
    }
    SubsetCardinality(visited, NodeIds(nodes));
  }

  lemma {:induction false} SubsetCardinality(a: set<JsValue>, b: set<JsValue>)
    requires a <= b
    ensures |a| <= |b|
    decreases |b|
  {
    if b != {} {
      var x :| x in b;
      SubsetCardinality(a - {x}, b - {x});
    }
  }

  /** Two walks from the same start agree up to the shorter length. */
  lemma {:induction false} WalksAgree(nodes: seq<JsValue>, start: JsValue, w1: seq<JsValue>, w2: seq<JsValue>, k: nat)
    requires IsWalk(nodes, start, w1) && IsWalk(nodes, start, w2)
    requires k < |w1| && k < |w2|
    ensures w1[k] == w2[k]
  {
    if k > 0 {
      WalksAgree(nodes, start, w1, w2, k - 1);
    }
  }

  /** A walk cannot stop before another walk from the same start. */
  lemma {:induction false} WalkNotShorter(nodes: seq<JsValue>, start: JsValue, w1: seq<JsValue>, w2: seq<JsValue>)
    requires IsWalk(nodes, start, w1) && IsWalk(nodes, start, w2)
    requires |w1| <= |w2|
    ensures |w1| == |w2|
  {
    if |w1| < |w2| {
      var n := |w1|;
      if n > 0 {
        WalksAgree(nodes, start, w1, w2, n - 1);
      }
      var after := After(nodes, start, w1);
      assert after == w2[n];
      var p1, p2 := PathOf(w1), PathOf(w2);
      assert Get(after, "id") in p1;
      var j :| 0 <= j < n && p1[j] == Get(after, "id");
      WalksAgree(nodes, start, w1, w2, j);
    }
  }

  /** The walk from a start node is unique: the loop's result is determined by the nodes
      and the start alone. */
  lemma {:induction false} WalkUnique(nodes: seq<JsValue>, start: JsValue, w1: seq<JsValue>, w2: seq<JsValue>)
    requires IsWalk(nodes, start, w1) && IsWalk(nodes, start, w2)
    ensures w1 == w2
  {
    if |w1| <= |w2| {
      WalkNotShorter(nodes, start, w1, w2);
    } else {
      WalkNotShorter(nodes, start, w2, w1);
    }
    forall k | 0 <= k < |w1|
      ensures w1[k] == w2[k]
    {
      WalksAgree(nodes, start, w1, w2, k);
    }
  }

  /** What a call to `runSimulation` does: nothing, highlight a path of ids, or throw. */
  datatype Outcome = NoRun | Highlight(path: seq<JsValue>) | Threw(reason: string)

  /** `runSimulation(nodes)` up to the timer that highlights the path. */
  method RunSimulation(nodes: JsValue) returns (r: Outcome)
    ensures r.NoRun? <==> !nodes.Arr? || |nodes.items| == 0
    ensures r.Threw? <==> nodes.Arr? && |nodes.items| > 0 && FindStart(nodes.items).TypeError?
    ensures r.Highlight? ==>
              && nodes.Arr? && |nodes.items| > 0 && StartNode(nodes.items).Ok?
              && exists walked :: IsWalk(nodes.items, StartNode(nodes.items).value, walked) && r.path == PathOf(walked)
    ensures r.Highlight? ==> |r.path| <= |NodeIds(nodes.items)|
  {
    if !nodes.Arr? || |nodes.items| == 0 {
      return NoRun;
    }
    var start := StartNode(nodes.items);
    if start.TypeError? {
      return Threw(start.reason);
    }
    var path, walked := Walk(nodes.items, start.value);
    return Highlight(path);
  }
}

=== FILE: viewport.dfy ===
/** The pan/zoom state of the canvas (`CanvasManager` in node.js) and the mapping
    between screen (client) coordinates and canvas coordinates. The element rectangles
    the source reads from the page are passed in as their top-left corner. */
module Viewport {
  import opened Wrappers
  import opened JsValues
  import opened Geometry

  /** `_scale` and `_pan`. */
  datatype Canvas = Canvas(scale: real, pan: Point)

  /** The range `setScale` keeps the scale in; every operation below preserves it. */
  ghost predicate Valid(c: Canvas) {
    0.1 <= c.scale <= 10.0
  }

  /** The tighter range an interactive ctrl-wheel zoom keeps the scale in. */
  ghost predicate InWheelRange(s: real) {
    0.4 <= s <= 2.5
  }

  /** `Math.max(lo, Math.min(hi, v))`. */
  function Clamp(lo: real, hi: real, v: real): real {
    if v > hi then (if lo > hi then lo else hi) else if v < lo then lo else v
  }

  /** `setScale(v)`: the scale becomes `Number(v)`, with NaN and 0 read as 1, limited to
      [0.1, 10]; the pan is untouched. */
  function SetScale(c: Canvas, v: JsValue): (r: Canvas)
    ensures Valid(r)
    ensures r.pan == c.pan
    ensures ToNumber(v).None? || ToNumber(v) == Some(0.0) ==> r.scale == 1.0
    ensures ToNumber(v).Some? && 0.1 <= ToNumber(v).value <= 10.0 ==> r.scale == ToNumber(v).value
    ensures ToNumber(v).Some? && ToNumber(v).value > 10.0 ==> r.scale == 10.0
    ensures ToNumber(v).Some? && ToNumber(v).value != 0.0 && ToNumber(v).value < 0.1 ==> r.scale == 0.1
  {
    Canvas(Clamp(0.1, 10.0, NumberOr(ToNumber(v), 1.0)), c.pan)
  }

  /** Setting the scale to the value it already has changes nothing. */
  lemma {:induction false} SetScaleIdempotent(c: Canvas, v: JsValue)
    ensures SetScale(SetScale(c, v), Num(SetScale(c, v).scale)) == SetScale(c, v)
  {
  }

  /** `setPan(p)`: reads `p.x` and `p.y` through `Number`, NaN and missing values read as
      0; throws when p is undefined or null. The scale is untouched. */
  function SetPan(c: Canvas, p: JsValue): (r: Result<Canvas>)
    ensures r.TypeError? <==> Nullish(p)
    ensures r.Ok? ==> r.value.scale == c.scale
    ensures p.Obj? && Get(p, "x").Num? ==> r.Ok? && r.value.pan.x == Get(p, "x").n
    ensures p.Obj? && Get(p, "y").Num? ==> r.Ok? && r.value.pan.y == Get(p, "y").n
    ensures r.Ok? && ToNumber(Get(p, "x")).None? ==> r.value.pan.x == 0.0
    ensures r.Ok? && ToNumber(Get(p, "y")).None? ==> r.value.pan.y == 0.0
    ensures r.Ok? && ToNumber(Get(p, "x")).Some? ==> r.value.pan.x == ToNumber(Get(p, "x")).value
    ensures r.Ok? && ToNumber(Get(p, "y")).Some? ==> r.value.pan.y == ToNumber(Get(p, "y")).value
  {
    if Nullish(p) then TypeError("Cannot read properties of " + (if p.Null? then "null" else "undefined"))
    else Ok(Canvas(c.scale, Point(NumberOr(ToNumber(Get(p, "x")), 0.0), NumberOr(ToNumber(Get(p, "y")), 0.0))))
  }

  /** The formula of `toCanvas(clientX, clientY)` and of the wheel handler, where `origin`
      is the top-left corner of the rectangle measured for the call: the client point,
      relative to that corner, with the pan removed and the scale divided out. This is the
      canvas point under the client point when origin is the corner of the untransformed
      canvas (the wrapper), not when it is the corner of the transformed inner element. */
  function ToCanvas(c: Canvas, origin: Point, client: Point): (q: Point)
    requires Valid(c)
    ensures ToScreen(c, origin, q) == client
  {
    var dx, dy := client.x - origin.x - c.pan.x, client.y - origin.y - c.pan.y;
    assert dx / c.scale * c.scale == dx;
    assert dy / c.scale * c.scale == dy;
    Point(dx / c.scale, dy / c.scale)
  }

  /** The client point that ToCanvas sends to canvas point q, for the same corner
      `origin`: Shown with a zero transform origin. */
  function ToScreen(c: Canvas, origin: Point, q: Point): Point {
    Point(origin.x + c.pan.x + q.x * c.scale, origin.y + c.pan.y + q.y * c.scale)
  }

  /** ToCanvas and ToScreen are inverse to each other. */
  lemma {:induction false} ToCanvasInverse(c: Canvas, origin: Point, p: Point, q: Point)
    requires Valid(c)
    ensures ToScreen(c, origin, ToCanvas(c, origin, p)) == p
    ensures ToCanvas(c, origin, ToScreen(c, origin, q)) == q
  {
    var s := c.scale;
    assert (p.x - origin.x - c.pan.x) / s * s == p.x - origin.x - c.pan.x;
    assert (p.y - origin.y - c.pan.y) / s * s == p.y - origin.y - c.pan.y;
    assert (q.x * s) / s == q.x;
    assert (q.y * s) / s == q.y;
  }

  /** Where the page shows canvas point q when the inner element's untransformed top-left
      corner is at `corner` and its CSS `transform-origin` is `to` (relative to that
      corner): `translate(pan) scale(scale)` applied around `to`. */
  function Shown(c: Canvas, corner: Point, to: Point, q: Point): Point {
    Point(corner.x + to.x + c.pan.x + c.scale * (q.x - to.x),
          corner.y + to.y + c.pan.y + c.scale * (q.y - to.y))
  }

  /** The top-left corner of the inner element's bounding rectangle, which
      `getBoundingClientRect` measures after the transform: where the corner itself is
      shown. */
  function InnerRect(c: Canvas, corner: Point, to: Point): Point {
    Point(corner.x + c.pan.x + (1.0 - c.scale) * to.x, corner.y + c.pan.y + (1.0 - c.scale) * to.y)
  }

  /** With a zero transform origin, Shown is ToScreen. */
  lemma {:induction false} ShownAtZeroOrigin(c: Canvas, corner: Point, q: Point)
    ensures Shown(c, corner, Origin, q) == ToScreen(c, corner, q)
  {
  }

  /** The canvas point under a client point, given the measured corner `rect` of the
      transformed inner element: the offset from that corner with the scale divided out.
      The pan is already in the measured corner. */
  function RectToCanvas(c: Canvas, rect: Point, client: Point): (q: Point)
    requires Valid(c)
  {
    Point((client.x - rect.x) / c.scale, (client.y - rect.y) / c.scale)
  }

  /** Measured against the inner element's rectangle, RectToCanvas finds the canvas point
      shown at the client point, whatever the transform origin. */
  lemma {:induction false} RectToCanvasFindsShownPoint(c: Canvas, corner: Point, to: Point, q: Point)
    requires Valid(c)
    ensures RectToCanvas(c, InnerRect(c, corner, to), Shown(c, corner, to, q)) == q
  {
    var s := c.scale;
    Distrib(s, q.x, to.x);
    Distrib(s, q.y, to.y);
    Distrib(s, 0.0, to.x);
    Distrib(s, 0.0, to.y);
    assert Shown(c, corner, to, q).x - InnerRect(c, corner, to).x == s * q.x;
    assert Shown(c, corner, to, q).y - InnerRect(c, corner, to).y == s * q.y;
    assert (s * q.x) / s == q.x;
    assert (s * q.y) / s == q.y;
  }

  /** `toCanvas` as written, measured against the inner element's rectangle, lands the pan
      divided by the scale away from the canvas point shown at the client point. */
  lemma {:induction false} ToCanvasOfInnerRectOffByPan(c: Canvas, corner: Point, to: Point, q: Point)
    requires Valid(c)
    ensures ToCanvas(c, InnerRect(c, corner, to), Shown(c, corner, to, q))
         == Point(q.x - c.pan.x / c.scale, q.y - c.pan.y / c.scale)
  {
    var s := c.scale;
    var rect, p := InnerRect(c, corner, to), Shown(c, corner, to, q);
    RectToCanvasFindsShownPoint(c, corner, to, q);
    assert (p.x - rect.x - c.pan.x) / s == (p.x - rect.x) / s - c.pan.x / s;
    assert (p.y - rect.y - c.pan.y) / s == (p.y - rect.y) / s - c.pan.y / s;
  }

  /** Multiplication distributes over subtraction. */
  lemma {:induction false} Distrib(a: real, b: real, c: real)
    ensures a * (b - c) == a * b - a * c && (b - c) * a == b * a - c * a
  {
  }

  /** The parts of a wheel event the zoom handler reads. */
  datatype WheelEvent = WheelEvent(ctrlKey: bool, deltaY: real, clientX: real, clientY: real)

  /** The pan a zoom from `prev` to `next` needs so that canvas point q stays put. */
  function ZoomPan(pan: Point, q: Point, prev: real, next: real): Point {
    Point(pan.x - q.x * (next - prev), pan.y - q.y * (next - prev))
  }

  /** The ctrl-wheel handler of `enablePanZoom`, for a wrapper whose top-left corner is
      `origin`: wheel up zooms in by 1.1, anything else zooms out by 0.9, the new scale is
      limited to [0.4, 2.5], and the pan moves so that the canvas point under the cursor
      stays under the cursor. Without ctrl the event is ignored. */
  function WheelZoom(c: Canvas, e: WheelEvent, origin: Point): (r: Canvas)
    requires Valid(c)
    ensures Valid(r)
    ensures !e.ctrlKey ==> r == c
    ensures e.ctrlKey ==> InWheelRange(r.scale)
    ensures e.ctrlKey ==> r.scale == Clamp(0.4, 2.5, c.scale * (if e.deltaY < 0.0 then 1.1 else 0.9))
    ensures e.ctrlKey && InWheelRange(c.scale) && e.deltaY < 0.0 ==> r.scale >= c.scale
    ensures e.ctrlKey && InWheelRange(c.scale) && e.deltaY >= 0.0 ==> r.scale <= c.scale
    ensures e.ctrlKey && c.scale > 2.5 ==> r.scale < c.scale
    ensures e.ctrlKey && c.scale < 0.4 ==> r.scale > c.scale
  {
    if !e.ctrlKey then c
    else
      var f := if e.deltaY < 0.0 then 1.1 else 0.9;
      var prev := c.scale;
      var next := Clamp(0.4, 2.5, prev * f);
      assert prev * 1.1 >= prev && prev * 0.9 <= prev;
      var q := ToCanvas(c, origin, Point(e.clientX, e.clientY));
      Canvas(next, ZoomPan(c.pan, q, prev, next))
  }

  /** Moving the pan by x·(next − prev) cancels the change of x·scale. */
  lemma {:induction false} PanCompensates(pan: real, x: real, prev: real, next: real)
    ensures (pan - x * (next - prev)) + x * next == pan + x * prev
  {
    Distrib(x, next, prev);
  }

  /** The zoom's pan keeps canvas point q where it is shown. */
  lemma {:induction false} ZoomKeepsShown(c: Canvas, origin: Point, q: Point, next: real)
    ensures ToScreen(Canvas(next, ZoomPan(c.pan, q, c.scale, next)), origin, q) == ToScreen(c, origin, q)
  {
    var pan := ZoomPan(c.pan, q, c.scale, next);
    assert pan.x == c.pan.x - q.x * (next - c.scale) && pan.y == c.pan.y - q.y * (next - c.scale);
    PanCompensates(c.pan.x, q.x, c.scale, next);
    PanCompensates(c.pan.y, q.y, c.scale, next);
    assert ToScreen(Canvas(next, pan), origin, q) == Point(origin.x + pan.x + q.x * next, origin.y + pan.y + q.y * next);
  }

  /** Zoom at the cursor: the canvas point that was under the cursor before the wheel
      step is under the cursor after it. */
  lemma {:induction false} WheelZoomKeepsCursorPoint(c: Canvas, e: WheelEvent, origin: Point)
    requires Valid(c) && e.ctrlKey
    ensures ToScreen(WheelZoom(c, e, origin), origin, ToCanvas(c, origin, Point(e.clientX, e.clientY)))
         == Point(e.clientX, e.clientY)
  {
    var client := Point(e.clientX, e.clientY);
    var q := ToCanvas(c, origin, client);
    var r := WheelZoom(c, e, origin);
    ToCanvasInverse(c, origin, client, q);
    assert r == Canvas(r.scale, ZoomPan(c.pan, q, c.scale, r.scale));
    ZoomKeepsShown(c, origin, q, r.scale);
  }

  /** The state-changing calls a canvas receives. */
  datatype Op =
    | SetScaleOp(v: JsValue)
    | SetPanOp(p: JsValue)
    | WheelOp(e: WheelEvent, origin: Point)

  /** One call; a `setPan` that throws leaves the state as it was. */
  function Apply(c: Canvas, op: Op): (r: Canvas)
    requires Valid(c)
    ensures Valid(r)
  {
    match op
    case SetScaleOp(v) => SetScale(c, v)
    case SetPanOp(p) => (match SetPan(c, p) case Ok(c') => c' case TypeError(_) => c)
    case WheelOp(e, origin) => WheelZoom(c, e, origin)
  }

  /** A sequence of calls, first to last. */
  function ApplyAll(c: Canvas, ops: seq<Op>): (r: Canvas)
    requires Valid(c)
    ensures Valid(r)
    ensures (forall k :: 0 <= k < |ops| ==> ops[k].SetPanOp?) ==> r.scale == c.scale
    decreases |ops|
  {
    if |ops| == 0 then c else ApplyAll(Apply(c, ops[0]), ops[1..])
  }
}

=== FILE: wrappers.dfy ===
/** Failure-carrying datatypes shared by the editor model.
    - Option<T>: a value that may be absent (JavaScript `undefined` / "not found").
    - Result<T>: a value, or the TypeError the JavaScript code would throw. */
module Wrappers {

  datatype Option<+T> = None | Some(value: T)

  /** The outcome of an operation that can throw in the source: either a value
      or a TypeError with a short reason. */
  datatype Result<+T> = Ok(value: T) | TypeError(reason: string)
}
